=== FILE: README.md ===
# junomum block ingestion, modelled in Dafny

This project models the worker of the junomum chain indexer and the lookup in
its module registry.

The worker takes block heights from a queue. For each height it:

1. asks the database whether the block is already stored;
2. otherwise fetches the block, its transactions and the node operators from
   the chain client;
3. saves the node infos and the block;
4. fans the block out to every module implementing the block handler
   interface;
5. handles each transaction in turn: it saves the transaction, fans it out to
   the transaction handlers, then decodes each message and fans it out to the
   message handlers.

A height whose processing fails is put back on the queue. The worker also
exports block commits. It turns each non-nil signature into a record that
carries its validator's voting power and priority, and aborts if a signer is
not in the validator set. It can also call the genesis handlers.

Modules are named records carrying the set of optional interfaces they
implement. `FindByName` finds the first module with a given name.

The model has two layers:

- **Module `Pipeline`** gives the observable behaviour of every operation as
  pure functions. Each returns a `Run`: the error the operation returns, the
  database content it leaves, and the trace of calls it makes, in order.
  The calls are to the chain client, to the database and to module handlers,
  plus handler-error logs and re-enqueues. Every loop of the source is a left
  fold over its first `n` iterations (`MsgsUpTo`, `ExportTxsUpTo`,
  `DispatchUpTo`, `CommitRecords`, `StartUpTo`).
- **Class `Workers.Worker`** is the imperative worker, with a queue and a
  call trace. Its database is an instance of class `Store.Database`. Each
  method is proved to leave exactly the state, trace and error that the
  matching `Pipeline` function gives. Each loop carries the fold as its
  invariant.

The worker's collaborators are parameters:

- the chain client (`Pipeline.Chain`: each query may fail);
- decoding and address conversion (`Pipeline.Codec`);
- which database calls fail (`Store.Faults`);
- whether a given module's handler fails on a given call (`handlerFails`).

The lemmas in the `*_facts.dfy` files prove the worker's rules:

- the skip of stored heights;
- the fixed order of fetches and saves;
- the first error aborts;
- handlers run in registration order;
- module errors are isolated: they change neither the result, nor the
  database, nor which handlers are called;
- re-enqueueing loses no height, for the re-enqueue as modelled: sequential,
  with the failed height captured when the failure happens (see "## Left out");
- commits are all-or-nothing.

One consequence of the code is proved as
`ProcessFacts.RetrySkipsPartiallyExportedHeight`. Suppose a transaction fails
after the node infos and the block were saved. Then `process` returns the
error and the height is re-enqueued. But the block is already stored, so the
retry is a mere skip, and the transactions left unexported stay so.

Two choices of the code are modelled as written, although a gentler policy
would be possible:

- A failure to save the node infos aborts `ExportBlock` and is returned
  (worker/worker.go:195-198). It is not merely logged while the block is
  still saved.
- A message that fails to decode ends the whole `ExportTxEvents` call
  (worker/worker.go:299-302). The later messages and the later transactions
  of the block are not handled. The error does not end only that
  transaction while the loop moves on to the next one.

## Model

The pure functions of the `Pipeline` module (`Process`, `ExportBlock`,
`ExportTxEvents`, `ExportTx`, `Dispatch`, `StartStep` and `StartUpTo`,
`HandleGenesis`, `CommitRecords`, `ExportCommit`) specify the worker's
operations and have no rows of their own. The `Workers.Worker` row of the
same name cites their source lines and ties the method to them. The
`*Facts` rows state what is proved about them.

| member | source | states |
|---|---|---|
| Registry.FindByName | modules/modules/module.go:21-28 | a module is found iff some module has that name; a found module has that name and is registered; `None` (the source's `nil, false`) when none matches |
| Registry.FindByNameReturnsFirst | modules/modules/module.go:22-25 | when several modules share the name, the earliest registered one is returned |
| Registry.CapableExactly | worker/worker.go:209-216 | the modules a fan-out visits are exactly those implementing the interface, each once, in strictly increasing registration order |
| Store.Database.HasBlock | worker/worker.go:68-71 | the existence check reports whether the height is stored, or its error |
| Store.Database.SaveNodeInfos | worker/worker.go:183 | a successful save appends the node infos; a failed one changes nothing |
| Store.Database.SaveBlock | worker/worker.go:201 | a successful save records the block and its height as stored; a failed one changes nothing |
| Store.Database.SaveTx | worker/worker.go:270 | a successful save appends the transaction; a failed one changes nothing |
| Store.Database.SaveCommitSignatures | worker/worker.go:256 | a successful save appends the records; a failed one changes nothing |
| Pipeline.MsgsUpTo | worker/worker.go:297-313 | the message loop never writes to the database |
| Pipeline.FindValidator | worker/worker.go:233-235 | a validator is found iff one has the signer's address; the one found has that address and is in the set |
| DispatchFacts.DispatchCalls | worker/worker.go:209-216 | a fan-out calls the handler of every module implementing the hook's interface, once each, in registration order, whatever the handlers return |
| DispatchFacts.DispatchUpToCalls | worker/worker.go:287-294 | after `n` iterations of a fan-out loop, the handler calls are those of the capable modules among the first `n`, in order |
| DispatchFacts.DispatchLogsErrors | worker/worker.go:305-312 | a handler error is logged exactly for a capable module whose handler failed |
| DispatchFacts.HandleGenesisContract | worker/worker.go:152-168 | an app state that does not unmarshal fails the call before any handler runs; otherwise every genesis handler runs in registration order, the call succeeds whatever they return, and the database is untouched |
| ExportFacts.MsgsStopAtError | worker/worker.go:299-302 | after the first decode error the message loop does nothing more |
| ExportFacts.MsgsErr | worker/worker.go:297-302 | the message loop fails, with a decode error, exactly when some message does not decode |
| ExportFacts.MsgsCallsInOrder | worker/worker.go:297-313 | while messages decode, each is fanned out to the message handlers, in increasing message index |
| ExportFacts.MsgsAbortAt | worker/worker.go:297-313 | a message that does not decode ends the loop with a decode error; the messages before it were dispatched, it and those after it are not |
| ExportFacts.ExportTxsStopAtError | worker/worker.go:268-302 | after the first error the transaction loop does nothing more: later transactions are neither saved nor dispatched |
| ExportFacts.ExportTxSavedCalls | worker/worker.go:270-313 | a transaction whose save succeeds is saved first, then all its transaction handlers run in module order, then the message loop; its error is the message loop's, and its handler calls are the transaction handlers' followed by the message loop's |
| ExportFacts.ExportTxCalls | worker/worker.go:270-313 | a clean transaction is saved first, then its transaction handlers run in module order, then its message handlers, message by message |
| ExportFacts.ExportTxDecodeFails | worker/worker.go:287-302 | a saved transaction whose message `m` is the first that does not decode fails with the decode error, after all its transaction handlers and the handlers of the messages before `m` have run |
| ExportFacts.ExportTxCallsAre | worker/worker.go:268-313 | the handler calls of one transaction in every case: none when its save fails; otherwise its transaction handlers, then the message handlers of each message before the first that does not decode |
| ExportFacts.ExportTxSaves | worker/worker.go:270-274 | handling a transaction writes that transaction and nothing else, or nothing when its save fails; it fails only on a failed save or a decode error |
| ExportFacts.ExportTxsSavesPrefix | worker/worker.go:266-317 | the transaction loop writes nothing but transactions; those it saves are a prefix of the block's, in block order; all of them when it succeeds |
| ExportFacts.AllCleanSucceed | worker/worker.go:266-317 | when every transaction saves and all its messages decode, the loop succeeds and saves them all, in order |
| ExportFacts.ExportTxSaveFails | worker/worker.go:270-274 | a transaction whose save fails returns that error at once: nothing is written and none of its transaction or message handlers is called |
| ExportFacts.ExportTxsAbortAt | worker/worker.go:268-302 | the first transaction that fails to save or to decode a message ends the call with that error; the transactions before it are saved (and it too when only a decode failed) and nothing after it is saved or dispatched; a failed save adds only its save call; the handler calls are those of the earlier transactions followed by the failing one's, as `ExportTxCallsAre` gives them |
| ProcessFacts.ProcessSkipsStored | worker/worker.go:68-76 | a stored height is skipped with success: one existence check, no fetch, no save, no handler call |
| ProcessFacts.ProcessExistenceCheckFails | worker/worker.go:68-71 | an error from the existence check is returned with no further effect |
| ProcessFacts.ProcessFetchFails | worker/worker.go:98-114 | the first failing fetch (block, then the transactions of the fetched block, then node operators) returns its own error, after exactly the existence check and the fetches up to it, in order; nothing is saved and no handler is called |
| ProcessFacts.ProcessFetchesThenExports | worker/worker.go:98-116 | when the fetches succeed they come first (block, transactions, node operators), and the outcome is that of exporting what they returned |
| ProcessFacts.ExportBlockSaveFails | worker/worker.go:195-205 | a failed save of the node infos or of the block is returned before any handler runs or any transaction is saved |
| ProcessFacts.ExportBlockSteps | worker/worker.go:193-220 | with both saves succeeding: node infos, then the block, then the block fan-out, then the transaction export |
| ProcessFacts.ExportBlockStoresBlock | worker/worker.go:193-220 | once both saves succeed, the block stays stored whatever happens next, and handler errors never surface |
| ProcessFacts.ExportBlockOrder | worker/worker.go:195-219 | node infos are saved before the block; every block handler runs once, in registration order, before any transaction handler |
| ProcessFacts.ProcessIdempotent | worker/worker.go:67-117 | once `process` has succeeded for a height, processing it again is a skip |
| ProcessFacts.RetrySkipsPartiallyExportedHeight | worker/worker.go:51-117 | a height whose transaction export failed after its block was saved returns that error, yet stays stored, so its retry is a skip |
| IsolationFacts.DispatchIsolated | worker/worker.go:209-216 | the handlers a fan-out calls do not depend on which handlers fail |
| IsolationFacts.MsgsIsolated | worker/worker.go:305-312 | the message loop's error, database and handler calls do not depend on handler failures |
| IsolationFacts.ExportTxIsolated | worker/worker.go:287-313 | handling a transaction gives the same error, database and handler calls whatever the handlers return |
| IsolationFacts.ExportTxsIsolated | worker/worker.go:266-317 | the same for the whole transaction loop |
| IsolationFacts.ExportBlockIsolated | worker/worker.go:193-220 | the same for exporting a block |
| IsolationFacts.ProcessIsolated | worker/worker.go:67-117 | processing a height returns the same error, writes the same database and calls the same handlers in the same order, whatever the handlers return |
| IsolationFacts.StartIsolated | worker/worker.go:51-62 | failing handlers do not change the work loop's queue, database or processed heights |
| StartFacts.StartStepRequeues | worker/worker.go:52-60 | one iteration puts the head height back at the end of the queue, behind the waiting heights, exactly when processing it failed; on success the queue is exactly the rest of the old queue and the height is recorded as processed |
| StartFacts.StartConserves | worker/worker.go:51-62 | no height is lost: every height taken from the queue is back in it or among those processed successfully |
| StartFacts.StartSkipsStored | worker/worker.go:51-76 | a run of already-stored heights is drained one per iteration, each a mere existence check, with no write and no handler call |
| CommitFacts.Signed | worker/worker.go:227-231 | the non-nil signatures of a commit, in order: every one kept is non-nil and from the commit, and every non-nil one is kept |
| CommitFacts.FindValidatorFirst | worker/worker.go:234 | the signer resolves to the first validator with its address |
| CommitFacts.CommitRecordsStopAtError | worker/worker.go:234-245 | after an unresolved signer the signature loop does nothing more |
| CommitFacts.CommitRecordsResolve | worker/worker.go:227-245 | the signature loop succeeds exactly when every non-nil signer is in the validator set; otherwise the error is "validator not found" |
| CommitFacts.CommitRecordsContent | worker/worker.go:227-254 | on success there is one record per non-nil signature, in commit order, built from that signature and its resolved validator |
| CommitFacts.RecordsCarryValidator | worker/worker.go:247-253 | each record carries its signer's bech32 address, the commit height, the signature's timestamp, and the voting power and proposer priority of a validator with the signer's address |
| CommitFacts.ExportCommitAllOrNothing | worker/worker.go:225-262 | an unresolved signer fails the call with nothing saved and no save attempted; otherwise all records are saved in one call, and on success appended, with nothing else changed |
| Workers.Worker.constructor | worker/worker.go:39-47 | a new worker holds the given collaborators and queue and has made no call |
| Workers.Worker.FanOut | worker/worker.go:159-165 | the fan-out loop appends exactly `Dispatch`'s calls: each capable module's handler in order, and an error log after each failed handler |
| Workers.Worker.Start | worker/worker.go:51-62 | after `rounds` iterations the queue, database and trace are those of `StartUpTo`, the work loop that re-enqueues failed heights |
| Workers.Worker.Process | worker/worker.go:67-117 | the error, new database and calls are those of `Pipeline.Process` |
| Workers.Worker.HandleGenesis | worker/worker.go:152-168 | the error and calls are those of `Pipeline.HandleGenesis` |
| Workers.Worker.SaveNodeInfos | worker/worker.go:182-188 | the error, new database and call are those of `Pipeline.SaveNodeInfos` |
| Workers.Worker.ExportBlock | worker/worker.go:193-220 | the error, new database and calls are those of `Pipeline.ExportBlock` |
| Workers.Worker.ExportTxEvents | worker/worker.go:266-317 | the error, new database and calls are those of `Pipeline.ExportTxEvents` |
| Workers.Worker.ExportTx | worker/worker.go:268-313 | handling one transaction gives the error, database and calls of `Pipeline.ExportTx` |
| Workers.Worker.ExportMsgs | worker/worker.go:297-313 | the message loop gives the error and calls of `Pipeline.MsgsUpTo` over all messages |
| Workers.Worker.ExportCommit | worker/worker.go:225-262 | the error, new database and call are those of `Pipeline.ExportCommit` |

## Left out

- The goroutine that re-enqueues a failed height (worker/worker.go:56-59) is
  modelled as a sequential append to the queue. Concurrency and the order in
  which concurrent re-enqueues land are not modelled.
- The re-enqueue goroutine (worker/worker.go:56-59) reads the loop variable
  `i` of the range at worker/worker.go:52 when it runs, not when it is
  started. Under the loop-variable rule of Go before 1.22 that variable is
  shared by all iterations. The goroutine can then log and enqueue a later
  height, and the failed one is dropped. The model captures the failed
  height itself. `StartFacts.StartConserves` ("no height is lost") therefore
  holds for this sequential re-enqueue only, not for the source as written
  under that rule.
- Workers.Worker.Start: runs for a given number of iterations. The source
  ranges over a channel for as long as it is open.
- Collaborators are deterministic functions of their arguments. A fetch that
  fails once and succeeds on retry is therefore not modelled: a retried height
  sees the same chain answers.
- The commented-out genesis branch of `process` (worker/worker.go:77-95) and
  genesis loading from file or RPC (worker/worker.go:120-148). They are file
  I/O, RPC and JSON parsing; unmarshalling the app state is an oracle that
  succeeds or fails.
- The unfinished per-event `GetTransaction` loop (worker/worker.go:276-284)
  does not compile and states no behaviour.
- `SaveValidators` (worker/worker.go:173-180) does not compile (it saves an
  undefined variable).
- Bech32 and consensus-address conversion are uninterpreted functions of the
  `Codec`. `findValidatorByAddr` is not part of this model; it is taken to
  return the first validator in the set with a matching address.
- The module interfaces for additional, asynchronous and periodic operations
  and for fast sync (`DownloadState`) are modelled only as capability flags.
  The worker shown never calls them, so "`DownloadState` runs at most once"
  is not stated.
- `FindByName` is a pure function of the module sequence, so it cannot
  change the registry. No separate statement is needed.
- Logging is modelled only as the `HandlerError` event after a failed
  handler. Other log lines and the error messages' text are not modelled; an
  error is a tag naming where it came from.
- Heights and voting powers are `int64` in the source and unbounded integers
  here; no operation does arithmetic on them.
- The handler signatures in modules/modules/module.go differ from the calls
  in worker/worker.go. Handlers are modelled only by which module is called
  with which arguments, and whether it fails.

=== FILE: commit_facts.dfy ===
/** Properties of commit export: nil signatures are skipped, one record per
    remaining signature carrying its validator's voting power and priority,
    and nothing at all is saved when a signer cannot be resolved. */
module CommitFacts {
  import opened Types
  import opened Store
  import opened Pipeline

  /** After an unresolved signer the signature loop does nothing more. */
  lemma {:induction false} CommitRecordsStopAtError(codec: Codec, commit: Commit, vals: seq<Validator>, k: nat, n: nat)
    requires k <= n <= |commit.signatures|
    requires CommitRecords(codec, commit, vals, k).Err?
    ensures CommitRecords(codec, commit, vals, n) == CommitRecords(codec, commit, vals, k)
    decreases n
  {
    if n > k {
      CommitRecordsStopAtError(codec, commit, vals, k, n - 1);
    }
  }

  /** The signatures of `sigs` that are not nil, in their order. */
  function Signed(sigs: seq<CommitSig>): (signed: seq<CommitSig>)
    ensures |signed| <= |sigs|
    ensures forall j :: 0 <= j < |signed| ==> signed[j].signature.Some? && signed[j] in sigs
    ensures forall i :: 0 <= i < |sigs| && sigs[i].signature.Some? ==> sigs[i] in signed
  {
    if sigs == [] then []
    else
      var last := sigs[|sigs| - 1];
      var rest := Signed(sigs[..|sigs| - 1]);
      assert forall i :: 0 <= i < |sigs| - 1 ==> sigs[i] == sigs[..|sigs| - 1][i];
      if last.signature.None? then rest else rest + [last]
  }

  /** A signature is resolved when it is nil or its signer is in the set. */
  predicate Resolved(codec: Codec, vals: seq<Validator>, sig: CommitSig) {
    sig.signature.None? || FindValidator(vals, codec.consAddress(sig.validatorAddress)).Some?
  }

  /** The validator lookup returns the first validator with that address. */
  lemma {:induction false} FindValidatorFirst(vals: seq<Validator>, address: string, i: nat)
    requires i < |vals| && vals[i].address == address
    requires forall j :: 0 <= j < i ==> vals[j].address != address
    ensures FindValidator(vals, address) == Some(vals[i])
  {
    if i > 0 {
      FindValidatorFirst(vals[1..], address, i - 1);
    }
  }

  /** The loop over the first `n` signatures succeeds exactly when every
      non-nil one among them has its signer in the validator set. */
  lemma {:induction false} CommitRecordsResolve(codec: Codec, commit: Commit, vals: seq<Validator>, n: nat)
    requires n <= |commit.signatures|
    ensures CommitRecords(codec, commit, vals, n).Ok?
        <==> forall j :: 0 <= j < n ==> Resolved(codec, vals, commit.signatures[j])
    ensures CommitRecords(codec, commit, vals, n).Err? ==> CommitRecords(codec, commit, vals, n).error == ValidatorNotFound
  {
    if n > 0 {
      CommitRecordsResolve(codec, commit, vals, n - 1);
    }
  }

  /** On success there is one record per non-nil signature, in order, built
      from that signature and the validator its signer resolves to. */
  lemma {:induction false} CommitRecordsContent(codec: Codec, commit: Commit, vals: seq<Validator>, n: nat)
    requires n <= |commit.signatures|
    requires CommitRecords(codec, commit, vals, n).Ok?
    ensures var rs := CommitRecords(codec, commit, vals, n).value;
      var signed := Signed(commit.signatures[..n]);
      && |rs| == |signed|
      && forall j :: 0 <= j < |rs| ==>
           && FindValidator(vals, codec.consAddress(signed[j].validatorAddress)).Some?
           && rs[j] == RecordFor(codec, commit, signed[j],
                                 FindValidator(vals, codec.consAddress(signed[j].validatorAddress)).value)
  {
    if n > 0 {
      CommitRecordsContent(codec, commit, vals, n - 1);
      assert commit.signatures[..n][..n - 1] == commit.signatures[..n - 1];
    }
  }

  /** Each record carries the bech32 form of its signer's address, the
      commit's height, the signature's timestamp, and the voting power and
      proposer priority of a validator whose address is that signer's. */
  lemma RecordsCarryValidator(codec: Codec, commit: Commit, vals: seq<Validator>)
    requires CommitRecords(codec, commit, vals, |commit.signatures|).Ok?
    ensures var rs := CommitRecords(codec, commit, vals, |commit.signatures|).value;
      var signed := Signed(commit.signatures);
      && |rs| == |signed|
      && forall j :: 0 <= j < |rs| ==>
           && rs[j].validatorAddress == codec.bech32Address(signed[j].validatorAddress)
           && rs[j].height == commit.height && rs[j].timestamp == signed[j].timestamp
           && exists v :: v in vals && v.address == codec.consAddress(signed[j].validatorAddress)
                && rs[j].votingPower == v.votingPower && rs[j].proposerPriority == v.proposerPriority
  {
    assert commit.signatures[..|commit.signatures|] == commit.signatures;
    CommitRecordsContent(codec, commit, vals, |commit.signatures|);
    var rs := CommitRecords(codec, commit, vals, |commit.signatures|).value;
    var signed := Signed(commit.signatures);
    forall j | 0 <= j < |rs|
      ensures exists v :: v in vals && v.address == codec.consAddress(signed[j].validatorAddress)
                && rs[j].votingPower == v.votingPower && rs[j].proposerPriority == v.proposerPriority
    {
      var v := FindValidator(vals, codec.consAddress(signed[j].validatorAddress)).value;
      assert v in vals && v.address == codec.consAddress(signed[j].validatorAddress);
    }
  }

  /** All or nothing: an unresolved signer anywhere in the commit makes the
      call fail with no save at all; otherwise all the records are saved in
      one call, and on success appended to the stored signatures. */
  lemma ExportCommitAllOrNothing(env: Env, db: DbState, commit: Commit, vals: seq<Validator>)
    ensures var r := ExportCommit(env, db, commit, vals);
      && ((exists j :: 0 <= j < |commit.signatures| && !Resolved(env.codec, vals, commit.signatures[j]))
           <==> r == Run(Some(ValidatorNotFound), db, []))
      && ((forall j :: 0 <= j < |commit.signatures| ==> Resolved(env.codec, vals, commit.signatures[j]))
           ==> && CommitRecords(env.codec, commit, vals, |commit.signatures|).Ok?
               && var rs := CommitRecords(env.codec, commit, vals, |commit.signatures|).value;
               && |rs| == |Signed(commit.signatures)|
               && r.trace == [SaveCommitSignaturesCall(rs)]
               && (r.err.None? <==> !env.faults.saveCommitSignatures(rs))
               && r.db.signatures == db.signatures + (if r.err.None? then rs else [])
               && r.db.(signatures := db.signatures) == db)
  {
    CommitRecordsResolve(env.codec, commit, vals, |commit.signatures|);
    if CommitRecords(env.codec, commit, vals, |commit.signatures|).Ok? {
      CommitRecordsContent(env.codec, commit, vals, |commit.signatures|);
      assert commit.signatures[..|commit.signatures|] == commit.signatures;
    }
  }
}

=== FILE: dispatch_facts.dfy ===
/** Properties of the fan-out to modules: which handlers are called, in which
    order, and what a failing handler changes. */
module DispatchFacts {
  import opened Types
  import opened Registry
  import opened Store
  import opened Pipeline

  lemma {:induction false} CallsAppend(a: seq<Event>, b: seq<Event>)
    ensures Calls(a + b) == Calls(a) + Calls(b)
  {
    if a == [] {
      assert a + b == b;
    } else {
      var h := if a[0].HandlerCall? then [a[0]] else [];
      assert (a + b)[0] == a[0];
      assert (a + b)[1..] == a[1..] + b;
      assert Calls(a + b) == h + Calls(a[1..] + b);
      CallsAppend(a[1..], b);
      TraceAssoc(h, Calls(a[1..]), Calls(b));
    }
  }

  /** A trace with no handler call in it has no calls. */
  lemma {:induction false} CallsOfNoCall(t: seq<Event>)
    requires forall j :: 0 <= j < |t| ==> !t[j].HandlerCall?
    ensures Calls(t) == []
  {
    if t != [] {
      CallsOfNoCall(t[1..]);
    }
  }

  lemma CallsToAppend(a: seq<nat>, b: seq<nat>, hook: Hook)
    ensures CallsTo(a + b, hook) == CallsTo(a, hook) + CallsTo(b, hook)
  {
  }

  /** Module `i` contributes one call if it implements the interface, none otherwise. */
  lemma HandlerStepCalls(env: Env, hook: Hook, i: nat)
    requires i < |env.modules|
    ensures Calls(HandlerStep(env, hook, i))
         == CallsTo(if env.modules[i].Implements(hook.Kind()) then [i] else [], hook)
  {
    var step := HandlerStep(env, hook, i);
    if env.modules[i].Implements(hook.Kind()) {
      assert step == [HandlerCall(i, hook)] + step[1..];
      CallsAppend([HandlerCall(i, hook)], step[1..]);
      CallsOfNoCall(step[1..]);
    } else {
      CallsOfNoCall(step);
    }
  }

  lemma {:induction false} DispatchUpToCalls(env: Env, hook: Hook, n: nat)
    requires n <= |env.modules|
    ensures Calls(DispatchUpTo(env, hook, n)) == CallsTo(Capable(env.modules, hook.Kind(), n), hook)
  {
    if n > 0 {
      DispatchUpToCalls(env, hook, n - 1);
      CallsAppend(DispatchUpTo(env, hook, n - 1), HandlerStep(env, hook, n - 1));
      HandlerStepCalls(env, hook, n - 1);
      CallsToAppend(Capable(env.modules, hook.Kind(), n - 1),
                    if env.modules[n - 1].Implements(hook.Kind()) then [n - 1] else [], hook);
    }
  }

  /** The fan-out calls the handler of every module implementing the hook's
      interface exactly once, in registration order, and no other handler,
      whatever the handlers return. */
  lemma DispatchCalls(env: Env, hook: Hook)
    ensures Calls(Dispatch(env, hook)) == CallsTo(Capable(env.modules, hook.Kind(), |env.modules|), hook)
  {
    DispatchUpToCalls(env, hook, |env.modules|);
  }

  lemma {:induction false} DispatchUpToErrors(env: Env, hook: Hook, n: nat, i: nat)
    requires n <= |env.modules|
    ensures HandlerError(i, hook) in DispatchUpTo(env, hook, n)
        <==> i < n && env.modules[i].Implements(hook.Kind()) && env.handlerFails(i, hook)
  {
    if n > 0 {
      DispatchUpToErrors(env, hook, n - 1, i);
      assert HandlerError(i, hook) in HandlerStep(env, hook, n - 1)
        <==> i == n - 1 && env.modules[n - 1].Implements(hook.Kind()) && env.handlerFails(n - 1, hook);
    }
  }

  /** A handler error is logged exactly for the capable modules whose handler failed. */
  lemma DispatchLogsErrors(env: Env, hook: Hook, i: nat)
    ensures HandlerError(i, hook) in Dispatch(env, hook)
        <==> i < |env.modules| && env.modules[i].Implements(hook.Kind()) && env.handlerFails(i, hook)
  {
    DispatchUpToErrors(env, hook, |env.modules|, i);
  }

  /** Genesis: an app state that does not unmarshal fails the call before any
      handler runs; otherwise every genesis handler runs, in order, and the
      call succeeds whatever they return. */
  lemma HandleGenesisContract(env: Env, db: DbState, genesis: GenesisDoc)
    ensures var r := HandleGenesis(env, db, genesis);
      && r.db == db
      && (r.err.Some? <==> env.codec.unmarshalAppState(genesis.appState).None?)
      && (r.err.Some? ==> r.err == Some(GenesisUnmarshalFailed) && r.trace == [])
      && (r.err.None? ==> Calls(r.trace) == CallsTo(Capable(env.modules, GenesisHandler, |env.modules|),
                                                     GenesisHook(genesis, env.codec.unmarshalAppState(genesis.appState).value)))
  {
    match env.codec.unmarshalAppState(genesis.appState)
    case None =>
    case Some(appState) => DispatchCalls(env, GenesisHook(genesis, appState));
  }
}

=== FILE: export_facts.dfy ===
/** Properties of transaction, message and commit export: where an error stops
    the loops, what is saved, and in which order handlers are called. */
module ExportFacts {
  import opened Types
  import opened Registry
  import opened Store
  import opened Pipeline
  import opened DispatchFacts

  /** After the first decode error the message loop does nothing more. */
  lemma {:induction false} MsgsStopAtError(env: Env, db: DbState, tx: Tx, k: nat, n: nat)
    requires k <= n <= |tx.messages|
    requires MsgsUpTo(env, db, tx, k).err.Some?
    ensures MsgsUpTo(env, db, tx, n) == MsgsUpTo(env, db, tx, k)
    decreases n
  {
    if n > k {
      MsgsStopAtError(env, db, tx, k, n - 1);
      var r := MsgsUpTo(env, db, tx, n - 1);
      assert r.err.Some?;
      assert MsgsUpTo(env, db, tx, n) == r;
    }
  }

  /** After the first error the transaction loop does nothing more: later
      transactions are neither saved nor dispatched. */
  lemma {:induction false} ExportTxsStopAtError(env: Env, db: DbState, txs: seq<Tx>, k: nat, n: nat)
    requires k <= n <= |txs|
    requires ExportTxsUpTo(env, db, txs, k).err.Some?
    ensures ExportTxsUpTo(env, db, txs, n) == ExportTxsUpTo(env, db, txs, k)
    decreases n
  {
    if n > k {
      ExportTxsStopAtError(env, db, txs, k, n - 1);
      ExportTxsStopped(env, db, txs, n);
    }
  }

  /** An iteration of the transaction loop after an error does nothing. */
  lemma ExportTxsStopped(env: Env, db: DbState, txs: seq<Tx>, n: nat)
    requires 0 < n <= |txs| && ExportTxsUpTo(env, db, txs, n - 1).err.Some?
    ensures ExportTxsUpTo(env, db, txs, n) == ExportTxsUpTo(env, db, txs, n - 1)
  {
  }

  /** One more iteration of the message loop, while no message has failed
      to decode: the next message is decoded and fanned out. */
  lemma MsgsNext(env: Env, db: DbState, tx: Tx, n: nat)
    requires 0 < n <= |tx.messages| && MsgsUpTo(env, db, tx, n - 1).err.None?
    requires env.codec.decodeMsg(tx.messages[n - 1]).Some?
    ensures MsgsUpTo(env, db, tx, n)
      == Run(None, db, MsgsUpTo(env, db, tx, n - 1).trace
                       + Dispatch(env, MsgHook(n - 1, env.codec.decodeMsg(tx.messages[n - 1]).value, tx)))
  {
  }

  /** A message that fails to decode ends the message loop with an error and
      no further calls. */
  lemma MsgsFail(env: Env, db: DbState, tx: Tx, n: nat)
    requires 0 < n <= |tx.messages| && MsgsUpTo(env, db, tx, n - 1).err.None?
    requires env.codec.decodeMsg(tx.messages[n - 1]).None?
    ensures MsgsUpTo(env, db, tx, n) == Run(Some(MsgDecodeFailed), db, MsgsUpTo(env, db, tx, n - 1).trace)
  {
    var r := MsgsUpTo(env, db, tx, n - 1);
    assert r.trace + [] == r.trace;
  }

  /** One more iteration of the transaction loop, while it has not failed:
      the next transaction is exported from the database left so far. */
  lemma ExportTxsNext(env: Env, db: DbState, txs: seq<Tx>, k: nat)
    requires k < |txs| && ExportTxsUpTo(env, db, txs, k).err.None?
    ensures var before := ExportTxsUpTo(env, db, txs, k);
      var step := ExportTx(env, before.db, txs[k]);
      ExportTxsUpTo(env, db, txs, k + 1) == Run(step.err, step.db, before.trace + step.trace)
  {
  }

  /** The first `n` messages of `tx` all decode. */
  ghost predicate Decodes(env: Env, tx: Tx, n: nat)
    requires n <= |tx.messages|
  {
    forall i :: 0 <= i < n ==> env.codec.decodeMsg(tx.messages[i]).Some?
  }

  /** Whether `tx` is saved and all its messages decode. */
  ghost predicate Clean(env: Env, tx: Tx) {
    !env.faults.saveTx(tx) && Decodes(env, tx, |tx.messages|)
  }

  /** The handler calls expected for the first `n` messages of `tx`: message
      by message in index order, and for each message the capable modules in
      registration order. */
  ghost function MsgCalls(env: Env, tx: Tx, n: nat): seq<Event>
    requires n <= |tx.messages| && Decodes(env, tx, n)
  {
    if n == 0 then []
    else MsgCalls(env, tx, n - 1)
         + CallsTo(Capable(env.modules, MessageHandler, |env.modules|),
                   MsgHook(n - 1, env.codec.decodeMsg(tx.messages[n - 1]).value, tx))
  }

  /** While messages decode, each is dispatched, in index order. */
  lemma {:induction false} MsgsCallsInOrder(env: Env, db: DbState, tx: Tx, n: nat)
    requires n <= |tx.messages| && Decodes(env, tx, n)
    ensures MsgsUpTo(env, db, tx, n).err.None?
    ensures Calls(MsgsUpTo(env, db, tx, n).trace) == MsgCalls(env, tx, n)
  {
    if n > 0 {
      MsgsCallsInOrder(env, db, tx, n - 1);
      var msg := env.codec.decodeMsg(tx.messages[n - 1]).value;
      MsgsNext(env, db, tx, n);
      CallsAppend(MsgsUpTo(env, db, tx, n - 1).trace, Dispatch(env, MsgHook(n - 1, msg, tx)));
      DispatchCalls(env, MsgHook(n - 1, msg, tx));
    }
  }

  /** A message that fails to decode ends the message loop with an error:
      the messages before it were dispatched, it and those after it are not. */
  lemma {:induction false} MsgsAbortAt(env: Env, db: DbState, tx: Tx, k: nat)
    requires k < |tx.messages| && Decodes(env, tx, k)
    requires env.codec.decodeMsg(tx.messages[k]).None?
    ensures var r := MsgsUpTo(env, db, tx, |tx.messages|);
      r.err == Some(MsgDecodeFailed) && Calls(r.trace) == MsgCalls(env, tx, k)
  {
    MsgsCallsInOrder(env, db, tx, k);
    MsgsStopAtError(env, db, tx, k + 1, |tx.messages|);
    assert MsgsUpTo(env, db, tx, k + 1).trace == MsgsUpTo(env, db, tx, k).trace;
  }

  /** A transaction whose save succeeds is saved first, then its transaction
      handlers run, then the message loop; the outcome is the message loop's. */
  lemma ExportTxSavedCalls(env: Env, db: DbState, tx: Tx)
    requires !env.faults.saveTx(tx)
    ensures var r := ExportTx(env, db, tx);
      var m := MsgsUpTo(env, db.WithTx(tx), tx, |tx.messages|);
      && r.err == m.err && r.db == db.WithTx(tx) && r.trace[0] == SaveTxCall(tx)
      && Calls(r.trace) == CallsTo(Capable(env.modules, TransactionHandler, |env.modules|), TxHook(tx))
                           + Calls(m.trace)
  {
    var saved := db.WithTx(tx);
    var m := MsgsUpTo(env, saved, tx, |tx.messages|);
    var head := [SaveTxCall(tx)] + Dispatch(env, TxHook(tx));
    assert ExportTx(env, db, tx) == Run(m.err, saved, head + m.trace);
    assert Calls([SaveTxCall(tx)]) == [] by {
      CallsOfNoCall([SaveTxCall(tx)]);
    }
    CallsAppend([SaveTxCall(tx)], Dispatch(env, TxHook(tx)));
    DispatchCalls(env, TxHook(tx));
    assert Calls(head) == CallsTo(Capable(env.modules, TransactionHandler, |env.modules|), TxHook(tx));
    CallsAppend(head, m.trace);
  }

  /** A clean transaction is saved first, then its transaction handlers run,
      then its message handlers, message by message. */
  lemma ExportTxCalls(env: Env, db: DbState, tx: Tx)
    requires Clean(env, tx)
    ensures var r := ExportTx(env, db, tx);
      && r.err.None? && r.db == db.WithTx(tx) && r.trace[0] == SaveTxCall(tx)
      && Calls(r.trace) == CallsTo(Capable(env.modules, TransactionHandler, |env.modules|), TxHook(tx))
                           + MsgCalls(env, tx, |tx.messages|)
  {
    ExportTxSavedCalls(env, db, tx);
    MsgsCallsInOrder(env, db.WithTx(tx), tx, |tx.messages|);
  }

  /** A saved transaction whose message `m` is the first that does not decode
      fails with the decode error, after its transaction handlers and the
      handlers of the messages before `m` have run. */
  lemma ExportTxDecodeFails(env: Env, db: DbState, tx: Tx, m: nat)
    requires !env.faults.saveTx(tx) && m < |tx.messages| && Decodes(env, tx, m)
    requires env.codec.decodeMsg(tx.messages[m]).None?
    ensures var r := ExportTx(env, db, tx);
      && r.err == Some(MsgDecodeFailed) && r.db == db.WithTx(tx)
      && Calls(r.trace) == CallsTo(Capable(env.modules, TransactionHandler, |env.modules|), TxHook(tx))
                           + MsgCalls(env, tx, m)
  {
    ExportTxSavedCalls(env, db, tx);
    MsgsAbortAt(env, db.WithTx(tx), tx, m);
  }

  /** The number of leading messages of `tx` that decode, counting from `i`:
      the index of the first message at or after `i` that does not decode, or
      the number of messages when all do. */
  ghost function DecodedPrefix(env: Env, tx: Tx, i: nat): (m: nat)
    requires i <= |tx.messages| && Decodes(env, tx, i)
    ensures i <= m <= |tx.messages| && Decodes(env, tx, m)
    ensures m < |tx.messages| ==> env.codec.decodeMsg(tx.messages[m]).None?
    decreases |tx.messages| - i
  {
    if i == |tx.messages| || env.codec.decodeMsg(tx.messages[i]).None? then i
    else DecodedPrefix(env, tx, i + 1)
  }

  /** The handler calls that handling `tx` makes: none when its save fails;
      otherwise its transaction handlers, then the message handlers of the
      messages before the first that does not decode. */
  ghost function TxCalls(env: Env, tx: Tx): seq<Event> {
    if env.faults.saveTx(tx) then []
    else CallsTo(Capable(env.modules, TransactionHandler, |env.modules|), TxHook(tx))
         + MsgCalls(env, tx, DecodedPrefix(env, tx, 0))
  }

  /** Handling a transaction makes exactly the handler calls `TxCalls`
      describes, whether its save fails, a message fails to decode or all
      goes well. */
  lemma ExportTxCallsAre(env: Env, db: DbState, tx: Tx)
    ensures Calls(ExportTx(env, db, tx).trace) == TxCalls(env, tx)
  {
    if env.faults.saveTx(tx) {
      ExportTxSaveFails(env, db, tx);
    } else if DecodedPrefix(env, tx, 0) == |tx.messages| {
      ExportTxCalls(env, db, tx);
    } else {
      ExportTxDecodeFails(env, db, tx, DecodedPrefix(env, tx, 0));
    }
  }

  /** A transaction whose save fails returns at once: nothing is written and
      no transaction or message handler is called for it. */
  lemma ExportTxSaveFails(env: Env, db: DbState, tx: Tx)
    requires env.faults.saveTx(tx)
    ensures var r := ExportTx(env, db, tx);
      r == Run(Some(SaveTxFailed), db, [SaveTxCall(tx)]) && Calls(r.trace) == []
  {
    CallsOfNoCall([SaveTxCall(tx)]);
  }

  /** Handling one transaction writes that transaction and nothing else, or
      nothing at all when its save fails; it fails only if the save fails or
      a message does not decode. */
  lemma ExportTxSaves(env: Env, db: DbState, tx: Tx)
    ensures var r := ExportTx(env, db, tx);
      && r.db == (if env.faults.saveTx(tx) then db else db.WithTx(tx))
      && r.err == (if env.faults.saveTx(tx) then Some(SaveTxFailed)
                   else MsgsUpTo(env, db.WithTx(tx), tx, |tx.messages|).err)
  {
  }

  /** `db` differs from `db0` only in its transactions, which are those of
      `db0` followed by a prefix of the first `n` of `txs`. */
  ghost predicate SavedPrefix(db0: DbState, db: DbState, txs: seq<Tx>, n: nat)
    requires n <= |txs|
  {
    && db.(txs := db0.txs) == db0
    && |db0.txs| <= |db.txs| <= |db0.txs| + n
    && db.txs == db0.txs + txs[..|db.txs| - |db0.txs|]
  }

  lemma SavedPrefixGrows(db0: DbState, db: DbState, txs: seq<Tx>, n: nat)
    requires n < |txs| && SavedPrefix(db0, db, txs, n)
    ensures SavedPrefix(db0, db, txs, n + 1)
    ensures db.txs == db0.txs + txs[..n] ==> SavedPrefix(db0, db.WithTx(txs[n]), txs, n + 1)
  {
    if db.txs == db0.txs + txs[..n] {
      SavedOneMore(db0, db, txs, n);
    }
  }

  /** A clean transaction is saved and its handling succeeds. */
  lemma CleanTxSucceeds(env: Env, db: DbState, tx: Tx)
    requires Clean(env, tx)
    ensures ExportTx(env, db, tx).err.None? && ExportTx(env, db, tx).db == db.WithTx(tx)
  {
    ExportTxSaves(env, db, tx);
    MsgsCallsInOrder(env, db.WithTx(tx), tx, |tx.messages|);
  }

  /** Saving the next transaction extends the saved prefix by one. */
  lemma SavedOneMore(db0: DbState, db: DbState, txs: seq<Tx>, n: nat)
    requires n < |txs| && db.txs == db0.txs + txs[..n]
    ensures db.WithTx(txs[n]).txs == db0.txs + txs[..n + 1]
  {
    assert txs[..n + 1] == txs[..n] + [txs[n]];
  }

  /** The transaction loop writes nothing but transactions, and the
      transactions it saves are a prefix of `txs`, in order; all of them
      when it succeeds. */
  lemma {:induction false} ExportTxsSavesPrefix(env: Env, db: DbState, txs: seq<Tx>, n: nat)
    requires n <= |txs|
    ensures var r := ExportTxsUpTo(env, db, txs, n);
      && SavedPrefix(db, r.db, txs, n)
      && (r.err.None? ==> r.db.txs == db.txs + txs[..n])
  {
    if n == 0 {
      assert ExportTxsUpTo(env, db, txs, 0).db == db;
    } else {
      ExportTxsSavesPrefix(env, db, txs, n - 1);
      var r := ExportTxsUpTo(env, db, txs, n - 1);
      SavedPrefixGrows(db, r.db, txs, n - 1);
      if r.err.Some? {
        assert ExportTxsUpTo(env, db, txs, n) == r;
      } else {
        ExportTxsNext(env, db, txs, n - 1);
        ExportTxSaves(env, r.db, txs[n - 1]);
      }
    }
  }

  /** The message loop fails, with a decode error, exactly when some message
      among the first `n` does not decode. */
  lemma {:induction false} MsgsErr(env: Env, db: DbState, tx: Tx, n: nat)
    requires n <= |tx.messages|
    ensures MsgsUpTo(env, db, tx, n).err == if Decodes(env, tx, n) then None else Some(MsgDecodeFailed)
  {
    if n > 0 {
      MsgsErr(env, db, tx, n - 1);
      if Decodes(env, tx, n - 1) {
        if env.codec.decodeMsg(tx.messages[n - 1]).Some? {
          MsgsNext(env, db, tx, n);
        } else {
          MsgsFail(env, db, tx, n);
        }
      } else {
        MsgsStopAtError(env, db, tx, n - 1, n);
      }
    }
  }

  /** What the transaction loop `r` shows when transaction `k` is the first
      that is not clean: that transaction's error; the transactions before
      `k` saved, and `k` itself too when only a decode failed; a failed save
      adds only its save call to the trace; and the handler calls are those of
      the transactions before `k` followed by those `k` itself makes. */
  ghost predicate AbortedAt(env: Env, db: DbState, txs: seq<Tx>, k: nat, r: Run)
    requires k < |txs|
  {
    var before := ExportTxsUpTo(env, db, txs, k);
    && r.err == Some(if env.faults.saveTx(txs[k]) then SaveTxFailed else MsgDecodeFailed)
    && r.db.txs == db.txs + txs[..k] + (if env.faults.saveTx(txs[k]) then [] else [txs[k]])
    && (env.faults.saveTx(txs[k]) ==> r.trace == before.trace + [SaveTxCall(txs[k])])
    && Calls(r.trace) == Calls(before.trace) + TxCalls(env, txs[k])
  }

  /** If transaction `k` is the first that is not clean (its save fails or
      one of its messages does not decode), the call ends after it, as
      `AbortedAt` describes; nothing after `k` is saved or dispatched. */
  lemma {:induction false} ExportTxsAbortAt(env: Env, db: DbState, txs: seq<Tx>, k: nat)
    requires k < |txs|
    requires forall t <- txs[..k] :: Clean(env, t)
    requires !Clean(env, txs[k])
    ensures ExportTxEvents(env, db, txs) == ExportTxsUpTo(env, db, txs, k + 1)
    ensures AbortedAt(env, db, txs, k, ExportTxEvents(env, db, txs))
  {
    forall j | 0 <= j < k
      ensures Clean(env, txs[j])
    {
      assert txs[j] in txs[..k];
    }
    AllCleanSucceed(env, db, txs, k);
    UncleanStep(env, db, txs, k);
    ExportTxsStopAtError(env, db, txs, k + 1, |txs|);
  }

  /** The iteration of the transaction loop on a transaction that is not clean. */
  lemma UncleanStep(env: Env, db: DbState, txs: seq<Tx>, k: nat)
    requires k < |txs| && !Clean(env, txs[k])
    requires ExportTxsUpTo(env, db, txs, k).err.None?
    requires ExportTxsUpTo(env, db, txs, k).db.txs == db.txs + txs[..k]
    ensures AbortedAt(env, db, txs, k, ExportTxsUpTo(env, db, txs, k + 1))
  {
    var before := ExportTxsUpTo(env, db, txs, k);
    var step := ExportTx(env, before.db, txs[k]);
    ExportTxsNext(env, db, txs, k);
    ExportTxSaves(env, before.db, txs[k]);
    MsgsErr(env, before.db.WithTx(txs[k]), txs[k], |txs[k].messages|);
    CallsAppend(before.trace, step.trace);
    ExportTxCallsAre(env, before.db, txs[k]);
    if env.faults.saveTx(txs[k]) {
      ExportTxSaveFails(env, before.db, txs[k]);
    }
  }

  /** Clean transactions are all saved and the loop succeeds. */
  lemma {:induction false} AllCleanSucceed(env: Env, db: DbState, txs: seq<Tx>, n: nat)
    requires n <= |txs|
    requires forall j :: 0 <= j < n ==> Clean(env, txs[j])
    ensures var r := ExportTxsUpTo(env, db, txs, n);
      r.err.None? && r.db.txs == db.txs + txs[..n]
  {
    if n > 0 {
      AllCleanSucceed(env, db, txs, n - 1);
      assert Clean(env, txs[n - 1]);
      CleanStep(env, db, txs, n - 1);
    }
  }

  lemma CleanStep(env: Env, db: DbState, txs: seq<Tx>, n: nat)
    requires n < |txs| && Clean(env, txs[n])
    requires ExportTxsUpTo(env, db, txs, n).err.None?
    requires ExportTxsUpTo(env, db, txs, n).db.txs == db.txs + txs[..n]
    ensures ExportTxsUpTo(env, db, txs, n + 1).err.None?
    ensures ExportTxsUpTo(env, db, txs, n + 1).db.txs == db.txs + txs[..n + 1]
  {
    var r := ExportTxsUpTo(env, db, txs, n);
    ExportTxsNext(env, db, txs, n);
    CleanTxSucceeds(env, r.db, txs[n]);
    SavedOneMore(db, r.db, txs, n);
  }
}

=== FILE: isolation_facts.dfy ===
/** Module failures are isolated: whatever the handlers return, every worker
    operation returns the same error, leaves the same database and calls the
    same handlers in the same order. Only the logged handler errors differ. */
module IsolationFacts {
  import opened Types
  import opened Registry
  import opened Store
  import opened Pipeline
  import opened DispatchFacts
  import opened ExportFacts
  import opened ProcessFacts

  /** Two environments that differ at most in which handlers fail. */
  ghost predicate SameButHandlers(env1: Env, env2: Env) {
    env1.modules == env2.modules && env1.chain == env2.chain
    && env1.codec == env2.codec && env1.faults == env2.faults
  }

  /** What a run shows apart from the logged handler errors: its error, the
      database it leaves and the handlers it calls, in order. */
  datatype Outcome = Outcome(err: Option<Error>, db: DbState, calls: seq<Event>)

  ghost function Observed(r: Run): Outcome {
    Outcome(r.err, r.db, Calls(r.trace))
  }

  lemma ObservedThen(r1: Run, r2: Run, s1: Run, s2: Run)
    requires Calls(r1.trace) == Calls(r2.trace) && Observed(s1) == Observed(s2)
    ensures Observed(r1.Then(s1)) == Observed(r2.Then(s2))
  {
    CallsAppend(r1.trace, s1.trace);
    CallsAppend(r2.trace, s2.trace);
  }

  lemma DispatchIsolated(env1: Env, env2: Env, hook: Hook)
    requires SameButHandlers(env1, env2)
    ensures Calls(Dispatch(env1, hook)) == Calls(Dispatch(env2, hook))
  {
    DispatchCalls(env1, hook);
    DispatchCalls(env2, hook);
  }

  lemma {:induction false} MsgsIsolated(env1: Env, env2: Env, db: DbState, tx: Tx, n: nat)
    requires SameButHandlers(env1, env2) && n <= |tx.messages|
    ensures Observed(MsgsUpTo(env1, db, tx, n)) == Observed(MsgsUpTo(env2, db, tx, n))
  {
    if n > 0 {
      MsgsIsolated(env1, env2, db, tx, n - 1);
      MsgStepIsolated(env1, env2, db, tx, n);
    }
  }

  /** One more iteration of the message loop keeps two alike runs alike. */
  lemma MsgStepIsolated(env1: Env, env2: Env, db: DbState, tx: Tx, n: nat)
    requires SameButHandlers(env1, env2) && 0 < n <= |tx.messages|
    requires Observed(MsgsUpTo(env1, db, tx, n - 1)) == Observed(MsgsUpTo(env2, db, tx, n - 1))
    ensures Observed(MsgsUpTo(env1, db, tx, n)) == Observed(MsgsUpTo(env2, db, tx, n))
  {
    var r1, r2 := MsgsUpTo(env1, db, tx, n - 1), MsgsUpTo(env2, db, tx, n - 1);
    DecodeIsolated(env1, env2, db, tx, n - 1);
    ObservedThen(r1, r2, MsgStep(env1, db, tx, n - 1), MsgStep(env2, db, tx, n - 1));
  }

  /** Decoding one message and fanning it out looks the same from outside. */
  lemma DecodeIsolated(env1: Env, env2: Env, db: DbState, tx: Tx, i: nat)
    requires SameButHandlers(env1, env2) && i < |tx.messages|
    ensures Observed(MsgStep(env1, db, tx, i)) == Observed(MsgStep(env2, db, tx, i))
  {
    match env1.codec.decodeMsg(tx.messages[i])
    case None =>
    case Some(msg) => DispatchIsolated(env1, env2, MsgHook(i, msg, tx));
  }

  lemma ExportTxIsolated(env1: Env, env2: Env, db: DbState, tx: Tx)
    requires SameButHandlers(env1, env2)
    ensures Observed(ExportTx(env1, db, tx)) == Observed(ExportTx(env2, db, tx))
  {
    if !env1.faults.saveTx(tx) {
      var saved := db.WithTx(tx);
      var h1 := Run(None, saved, [SaveTxCall(tx)] + Dispatch(env1, TxHook(tx)));
      var h2 := Run(None, saved, [SaveTxCall(tx)] + Dispatch(env2, TxHook(tx)));
      DispatchIsolated(env1, env2, TxHook(tx));
      CallsAppend([SaveTxCall(tx)], Dispatch(env1, TxHook(tx)));
      CallsAppend([SaveTxCall(tx)], Dispatch(env2, TxHook(tx)));
      MsgsIsolated(env1, env2, saved, tx, |tx.messages|);
      ObservedThen(h1, h2, MsgsUpTo(env1, saved, tx, |tx.messages|), MsgsUpTo(env2, saved, tx, |tx.messages|));
    }
  }

  lemma {:induction false} ExportTxsIsolated(env1: Env, env2: Env, db: DbState, txs: seq<Tx>, n: nat)
    requires SameButHandlers(env1, env2) && n <= |txs|
    ensures Observed(ExportTxsUpTo(env1, db, txs, n)) == Observed(ExportTxsUpTo(env2, db, txs, n))
  {
    if n > 0 {
      ExportTxsIsolated(env1, env2, db, txs, n - 1);
      TxStepIsolated(env1, env2, db, txs, n);
    }
  }

  /** One more iteration of the transaction loop keeps two alike runs alike. */
  lemma TxStepIsolated(env1: Env, env2: Env, db: DbState, txs: seq<Tx>, n: nat)
    requires SameButHandlers(env1, env2) && 0 < n <= |txs|
    requires Observed(ExportTxsUpTo(env1, db, txs, n - 1)) == Observed(ExportTxsUpTo(env2, db, txs, n - 1))
    ensures Observed(ExportTxsUpTo(env1, db, txs, n)) == Observed(ExportTxsUpTo(env2, db, txs, n))
  {
    var r1, r2 := ExportTxsUpTo(env1, db, txs, n - 1), ExportTxsUpTo(env2, db, txs, n - 1);
    assert r1.err == r2.err && r1.db == r2.db && Calls(r1.trace) == Calls(r2.trace) by {
      assert Observed(r1).err == r1.err && Observed(r2).err == r2.err;
      assert Observed(r1).db == r1.db && Observed(r2).db == r2.db;
      assert Observed(r1).calls == Calls(r1.trace) && Observed(r2).calls == Calls(r2.trace);
    }
    ExportTxIsolated(env1, env2, r1.db, txs[n - 1]);
    ObservedThen(r1, r2, ExportTx(env1, r1.db, txs[n - 1]), ExportTx(env2, r2.db, txs[n - 1]));
  }

  lemma ExportBlockIsolated(env1: Env, env2: Env, db: DbState, b: Block, txs: seq<Tx>, ops: NodeOperators)
    requires SameButHandlers(env1, env2)
    ensures Observed(ExportBlock(env1, db, b, txs, ops)) == Observed(ExportBlock(env2, db, b, txs, ops))
  {
    if !env1.faults.saveNodeInfos(ops.nodeInfos) && !env1.faults.saveBlock(b) {
      var saved := db.WithNodeInfos(ops.nodeInfos).WithBlock(b);
      var head := [SaveNodeInfosCall(ops.nodeInfos), SaveBlockCall(b)];
      var d1, d2 := Dispatch(env1, BlockHook(b, txs, ops)), Dispatch(env2, BlockHook(b, txs, ops));
      var x1, x2 := ExportTxEvents(env1, saved, txs), ExportTxEvents(env2, saved, txs);
      ExportBlockSteps(env1, db, b, txs, ops);
      ExportBlockSteps(env2, db, b, txs, ops);
      DispatchIsolated(env1, env2, BlockHook(b, txs, ops));
      CallsAppend(head, d1);
      CallsAppend(head, d2);
      ExportTxsIsolated(env1, env2, saved, txs, |txs|);
      ObservedThen(Run(None, saved, head + d1), Run(None, saved, head + d2), x1, x2);
    }
  }

  /** Processing a height returns the same error, writes the same database and
      calls the same handlers, in the same order, whatever the handlers return. */
  lemma ProcessIsolated(env1: Env, env2: Env, db: DbState, height: Height)
    requires SameButHandlers(env1, env2)
    ensures Observed(Process(env1, db, height)) == Observed(Process(env2, db, height))
  {
    if !env1.faults.hasBlock(height) && height !in db.heights {
      match env1.chain.block(height)
      case None =>
      case Some(b) =>
        match env1.chain.txs(b)
        case None =>
        case Some(txs) =>
          match env1.chain.nodeOperators(height)
          case None =>
          case Some(ops) =>
            var f := Run(None, db, Fetches(height, b));
            ExportBlockIsolated(env1, env2, db, b, txs, ops);
            ObservedThen(f, f, ExportBlock(env1, db, b, txs, ops), ExportBlock(env2, db, b, txs, ops));
    }
  }

  /** Failing handlers do not hold up the work loop: the queue, the database
      and the heights processed are the same whatever the handlers return. */
  lemma {:induction false} StartIsolated(env1: Env, env2: Env, s: Loop, k: nat)
    requires SameButHandlers(env1, env2)
    ensures var t1 := StartUpTo(env1, s, k);
      var t2 := StartUpTo(env2, s, k);
      t1.queue == t2.queue && t1.db == t2.db && t1.done == t2.done && Calls(t1.trace) == Calls(t2.trace)
  {
    if k > 0 {
      StartIsolated(env1, env2, s, k - 1);
      StepIsolated(env1, env2, StartUpTo(env1, s, k - 1), StartUpTo(env2, s, k - 1));
    }
  }

  /** One iteration of the work loop from two states that agree on all but
      the logged handler errors leads to two such states again. */
  lemma StepIsolated(env1: Env, env2: Env, t1: Loop, t2: Loop)
    requires SameButHandlers(env1, env2)
    requires t1.queue == t2.queue && t1.db == t2.db && t1.done == t2.done && Calls(t1.trace) == Calls(t2.trace)
    ensures var u1 := StartStep(env1, t1);
      var u2 := StartStep(env2, t2);
      u1.queue == u2.queue && u1.db == u2.db && u1.done == u2.done && Calls(u1.trace) == Calls(u2.trace)
  {
    if t1.queue != [] {
      var h := t1.queue[0];
      var r1, r2 := Process(env1, t1.db, h), Process(env2, t2.db, h);
      ProcessIsolated(env1, env2, t1.db, h);
      CallsAppend(t1.trace, r1.trace);
      CallsAppend(t2.trace, r2.trace);
      if r1.err.Some? {
        CallsAppend(t1.trace + r1.trace, [Requeue(h)]);
        CallsAppend(t2.trace + r2.trace, [Requeue(h)]);
        CallsOfNoCall([Requeue(h)]);
      }
    }
  }
}

=== FILE: pipeline.dfy ===
/** The worker's observable behaviour, as pure functions. Each function gives,
    for one worker operation, the error it returns, the database content it
    leaves and the calls it makes to its collaborators (the chain client, the
    database and the modules' handlers) in the order it makes them. The
    imperative worker in module Workers is proved to behave exactly so. */
module Pipeline {
  import opened Types
  import opened Registry
  import opened Store

  /** The chain client: each query may fail (`None`). */
  datatype Chain = Chain(
    block: Height -> Option<Block>,
    txs: Block -> Option<seq<Tx>>,
    nodeOperators: Height -> Option<NodeOperators>)

  /** Decoding and address conversion, whose internals are not modelled. */
  datatype Codec = Codec(
    decodeMsg: RawMsg -> Option<Msg>,
    consAddress: Address -> string,
    bech32Address: Address -> string,
    unmarshalAppState: string -> Option<AppState>)

  /** Everything a worker consults: the registered modules, the collaborators,
      and, per module index and call, whether that module's handler fails. */
  datatype Env = Env(
    modules: seq<Module>,
    chain: Chain,
    codec: Codec,
    faults: Faults,
    handlerFails: (nat, Hook) -> bool)

  /** One call the worker makes, or one error it logs or re-enqueue it performs. */
  datatype Event =
    | HasBlockCall(height: Height)
    | BlockCall(height: Height)
    | TxsCall(block: Block)
    | NodeOperatorsCall(height: Height)
    | SaveNodeInfosCall(infos: seq<NodeInfo>)
    | SaveBlockCall(block: Block)
    | SaveTxCall(tx: Tx)
    | SaveCommitSignaturesCall(records: seq<CommitRecord>)
    | HandlerCall(index: nat, hook: Hook)
    | HandlerError(index: nat, hook: Hook)
    | Requeue(height: Height)

  /** The outcome of an operation: the error it returns (if any), the database
      it leaves behind and the calls it made. */
  datatype Run = Run(err: Option<Error>, db: DbState, trace: seq<Event>)
  {
    /** This run followed by `next`, which started from this run's database. */
    function Then(next: Run): Run {
      Run(next.err, next.db, trace + next.trace)
    }
  }

  /** Appending traces is associative (stated once, so that proofs that
      regroup traces do not re-derive it). */
  lemma TraceAssoc(a: seq<Event>, b: seq<Event>, c: seq<Event>)
    ensures a + (b + c) == (a + b) + c
  {
  }

  // ---------------------------------------------------------------------------
  // Fan-out to modules

  /** The calls made for module `i`: nothing unless it implements the hook's
      interface; otherwise the handler call, then an error log if it failed. */
  function HandlerStep(env: Env, hook: Hook, i: nat): seq<Event>
    requires i < |env.modules|
  {
    if env.modules[i].Implements(hook.Kind()) then
      [HandlerCall(i, hook)] + (if env.handlerFails(i, hook) then [HandlerError(i, hook)] else [])
    else []
  }

  /** The fan-out loop after its first `n` iterations. */
  function DispatchUpTo(env: Env, hook: Hook, n: nat): seq<Event>
    requires n <= |env.modules|
  {
    if n == 0 then [] else DispatchUpTo(env, hook, n - 1) + HandlerStep(env, hook, n - 1)
  }

  /** The fan-out of `hook` to every registered module, in registration order. */
  function Dispatch(env: Env, hook: Hook): seq<Event> {
    DispatchUpTo(env, hook, |env.modules|)
  }

  /** The handler calls of a trace, in order. */
  function Calls(t: seq<Event>): seq<Event> {
    if t == [] then []
    else (if t[0].HandlerCall? then [t[0]] else []) + Calls(t[1..])
  }

  /** One handler call of `hook` for each module index in `idx`, in that order. */
  function CallsTo(idx: seq<nat>, hook: Hook): seq<Event> {
    seq(|idx|, j requires 0 <= j < |idx| => HandlerCall(idx[j], hook))
  }

  // ---------------------------------------------------------------------------
  // Transactions and messages

  /** Decoding message `i` of `tx` and fanning it out to message handlers. */
  function MsgStep(env: Env, db: DbState, tx: Tx, i: nat): Run
    requires i < |tx.messages|
  {
    match env.codec.decodeMsg(tx.messages[i])
    case None => Run(Some(MsgDecodeFailed), db, [])
    case Some(msg) => Run(None, db, Dispatch(env, MsgHook(i, msg, tx)))
  }

  /** The message loop of one transaction after its first `n` iterations;
      the first decode error ends it. */
  function MsgsUpTo(env: Env, db: DbState, tx: Tx, n: nat): (r: Run)
    requires n <= |tx.messages|
    ensures r.db == db
  {
    if n == 0 then Run(None, db, [])
    else
      var r := MsgsUpTo(env, db, tx, n - 1);
      if r.err.Some? then r else r.Then(MsgStep(env, db, tx, n - 1))
  }

  /** Handling one transaction: save it, fan it out to transaction handlers,
      then decode and fan out each message. */
  function ExportTx(env: Env, db: DbState, tx: Tx): Run {
    if env.faults.saveTx(tx) then Run(Some(SaveTxFailed), db, [SaveTxCall(tx)])
    else
      var saved := db.WithTx(tx);
      Run(None, saved, [SaveTxCall(tx)] + Dispatch(env, TxHook(tx)))
        .Then(MsgsUpTo(env, saved, tx, |tx.messages|))
  }

  /** The transaction loop after its first `n` iterations; the first error ends it. */
  function ExportTxsUpTo(env: Env, db: DbState, txs: seq<Tx>, n: nat): Run
    requires n <= |txs|
  {
    if n == 0 then Run(None, db, [])
    else
      var r := ExportTxsUpTo(env, db, txs, n - 1);
      if r.err.Some? then r else r.Then(ExportTx(env, r.db, txs[n - 1]))
  }

  function ExportTxEvents(env: Env, db: DbState, txs: seq<Tx>): Run {
    ExportTxsUpTo(env, db, txs, |txs|)
  }

  // ---------------------------------------------------------------------------
  // Blocks and heights

  function SaveNodeInfos(env: Env, db: DbState, infos: seq<NodeInfo>): Run {
    if env.faults.saveNodeInfos(infos) then Run(Some(SaveNodeInfosFailed), db, [SaveNodeInfosCall(infos)])
    else Run(None, db.WithNodeInfos(infos), [SaveNodeInfosCall(infos)])
  }

  /** Save the node infos, then the block; fan the block out to block
      handlers; then export its transactions. */
  function ExportBlock(env: Env, db: DbState, b: Block, txs: seq<Tx>, ops: NodeOperators): Run {
    var infos := SaveNodeInfos(env, db, ops.nodeInfos);
    if infos.err.Some? then infos
    else if env.faults.saveBlock(b) then infos.Then(Run(Some(SaveBlockFailed), infos.db, [SaveBlockCall(b)]))
    else
      var saved := infos.db.WithBlock(b);
      infos.Then(Run(None, saved, [SaveBlockCall(b)] + Dispatch(env, BlockHook(b, txs, ops))))
        .Then(ExportTxEvents(env, saved, txs))
  }

  /** The calls `process` makes before exporting, in order. */
  function Fetches(height: Height, b: Block): seq<Event> {
    [HasBlockCall(height), BlockCall(height), TxsCall(b), NodeOperatorsCall(height)]
  }

  /** Processing one height: skip it if already stored, else fetch the block,
      its transactions and the node operators, then export them. */
  function Process(env: Env, db: DbState, height: Height): Run {
    if env.faults.hasBlock(height) then Run(Some(HasBlockFailed), db, [HasBlockCall(height)])
    else if height in db.heights then Run(None, db, [HasBlockCall(height)])
    else match env.chain.block(height)
      case None => Run(Some(BlockFetchFailed), db, [HasBlockCall(height), BlockCall(height)])
      case Some(b) =>
        var f := Fetches(height, b);
        match env.chain.txs(b)
        case None => Run(Some(TxsFetchFailed), db, f[..3])
        case Some(txs) =>
          match env.chain.nodeOperators(height)
          case None => Run(Some(NodeOperatorsFetchFailed), db, f)
          case Some(ops) => Run(None, db, f).Then(ExportBlock(env, db, b, txs, ops))
  }

  // ---------------------------------------------------------------------------
  // The work loop

  /** The state of the work loop; `done` lists the heights processed without
      error, in order (bookkeeping for the proofs). */
  datatype Loop = Loop(queue: seq<Height>, db: DbState, trace: seq<Event>, done: seq<Height>)

  /** One iteration: take the head of the queue, process it, and put it back
      at the end of the queue if processing failed. */
  function StartStep(env: Env, s: Loop): Loop {
    if s.queue == [] then s
    else
      var h := s.queue[0];
      var r := Process(env, s.db, h);
      if r.err.Some? then Loop(s.queue[1..] + [h], r.db, s.trace + r.trace + [Requeue(h)], s.done)
      else Loop(s.queue[1..], r.db, s.trace + r.trace, s.done + [h])
  }

  /** The work loop after `k` iterations. */
  function StartUpTo(env: Env, s: Loop, k: nat): Loop {
    if k == 0 then s else StartStep(env, StartUpTo(env, s, k - 1))
  }

  // ---------------------------------------------------------------------------
  // Genesis

  function HandleGenesis(env: Env, db: DbState, genesis: GenesisDoc): Run {
    match env.codec.unmarshalAppState(genesis.appState)
    case None => Run(Some(GenesisUnmarshalFailed), db, [])
    case Some(appState) => Run(None, db, Dispatch(env, GenesisHook(genesis, appState)))
  }

  // ---------------------------------------------------------------------------
  // Commit signatures

  /** The first validator whose address is `address`. */
  function FindValidator(vals: seq<Validator>, address: string): (v: Option<Validator>)
    ensures v.Some? <==> exists i :: 0 <= i < |vals| && vals[i].address == address
    ensures v.Some? ==> v.value.address == address && v.value in vals
  {
    if vals == [] then None
    else if vals[0].address == address then Some(vals[0])
    else FindValidator(vals[1..], address)
  }

  /** The record saved for signature `sig`, signed by validator `v`. */
  function RecordFor(codec: Codec, commit: Commit, sig: CommitSig, v: Validator): CommitRecord {
    CommitRecord(codec.bech32Address(sig.validatorAddress), v.votingPower, v.proposerPriority,
                 commit.height, sig.timestamp)
  }

  /** The signature loop after its first `n` iterations: nil signatures are
      skipped, an unresolved signer ends it with an error. */
  function CommitRecords(codec: Codec, commit: Commit, vals: seq<Validator>, n: nat): Result<seq<CommitRecord>>
    requires n <= |commit.signatures|
  {
    if n == 0 then Ok([])
    else match CommitRecords(codec, commit, vals, n - 1)
      case Err(e) => Err(e)
      case Ok(records) =>
        var sig := commit.signatures[n - 1];
        if sig.signature.None? then Ok(records)
        else match FindValidator(vals, codec.consAddress(sig.validatorAddress))
          case None => Err(ValidatorNotFound)
          case Some(v) => Ok(records + [RecordFor(codec, commit, sig, v)])
  }

  function ExportCommit(env: Env, db: DbState, commit: Commit, vals: seq<Validator>): Run {
    match CommitRecords(env.codec, commit, vals, |commit.signatures|)
    case Err(e) => Run(Some(e), db, [])
    case Ok(records) =>
      if env.faults.saveCommitSignatures(records) then
        Run(Some(SaveCommitSignaturesFailed), db, [SaveCommitSignaturesCall(records)])
      else Run(None, db.WithSignatures(records), [SaveCommitSignaturesCall(records)])
  }
}

=== FILE: process_facts.dfy ===
/** Properties of processing one height: the existence check, the order of
    fetches and saves, what a failure leaves behind, and idempotence. */
module ProcessFacts {
  import opened Types
  import opened Registry
  import opened Store
  import opened Pipeline
  import opened DispatchFacts
  import opened ExportFacts

  /** All three chain queries for `height` succeed. */
  predicate FetchesSucceed(env: Env, height: Height) {
    && env.chain.block(height).Some?
    && env.chain.txs(env.chain.block(height).value).Some?
    && env.chain.nodeOperators(height).Some?
  }

  /** A height whose block is already stored is skipped: success, nothing
      fetched, saved or dispatched. */
  lemma ProcessSkipsStored(env: Env, db: DbState, height: Height)
    requires !env.faults.hasBlock(height) && height in db.heights
    ensures Process(env, db, height) == Run(None, db, [HasBlockCall(height)])
  {
  }

  /** An error from the existence check is returned with no further effect. */
  lemma ProcessExistenceCheckFails(env: Env, db: DbState, height: Height)
    requires env.faults.hasBlock(height)
    ensures Process(env, db, height) == Run(Some(HasBlockFailed), db, [HasBlockCall(height)])
  {
  }

  /** When a fetch fails, the calls made are the existence check and the
      fetches in their fixed order up to the first failing one; that fetch's
      error is returned; nothing is saved and no handler is called. */
  lemma ProcessFetchFails(env: Env, db: DbState, height: Height)
    requires !env.faults.hasBlock(height) && height !in db.heights
    requires !FetchesSucceed(env, height)
    ensures var r := Process(env, db, height);
      && r.err.Some? && r.err.value in {BlockFetchFailed, TxsFetchFailed, NodeOperatorsFetchFailed}
      && r.db == db
      && 2 <= |r.trace| <= 4 && r.trace[..2] == [HasBlockCall(height), BlockCall(height)]
      && Calls(r.trace) == []
    ensures var r := Process(env, db, height);
      if env.chain.block(height).None? then
        r == Run(Some(BlockFetchFailed), db, [HasBlockCall(height), BlockCall(height)])
      else
        var f := Fetches(height, env.chain.block(height).value);
        if env.chain.txs(env.chain.block(height).value).None? then r == Run(Some(TxsFetchFailed), db, f[..3])
        else r == Run(Some(NodeOperatorsFetchFailed), db, f)
  {
    var r := Process(env, db, height);
    CallsOfNoCall(r.trace);
  }

  /** When the fetches succeed they come first, in the order block,
      transactions, node operators, and the outcome is that of exporting
      what they returned. */
  lemma ProcessFetchesThenExports(env: Env, db: DbState, height: Height)
    requires !env.faults.hasBlock(height) && height !in db.heights
    requires FetchesSucceed(env, height)
    ensures var b := env.chain.block(height).value;
      var x := ExportBlock(env, db, b, env.chain.txs(b).value, env.chain.nodeOperators(height).value);
      var r := Process(env, db, height);
      && r.trace[..4] == Fetches(height, b)
      && r.err == x.err && r.db == x.db
      && Calls(r.trace) == Calls(x.trace)
  {
    var b := env.chain.block(height).value;
    var x := ExportBlock(env, db, b, env.chain.txs(b).value, env.chain.nodeOperators(height).value);
    CallsAppend(Fetches(height, b), x.trace);
    CallsOfNoCall(Fetches(height, b));
  }

  /** A failure to save the node infos or the block is returned before any
      handler runs and before any transaction is saved; a failed block save
      leaves the node infos saved just before it. */
  lemma ExportBlockSaveFails(env: Env, db: DbState, b: Block, txs: seq<Tx>, ops: NodeOperators)
    requires env.faults.saveNodeInfos(ops.nodeInfos) || env.faults.saveBlock(b)
    ensures var r := ExportBlock(env, db, b, txs, ops);
      && r == (if env.faults.saveNodeInfos(ops.nodeInfos)
               then Run(Some(SaveNodeInfosFailed), db, [SaveNodeInfosCall(ops.nodeInfos)])
               else Run(Some(SaveBlockFailed), db.WithNodeInfos(ops.nodeInfos),
                        [SaveNodeInfosCall(ops.nodeInfos), SaveBlockCall(b)]))
      && Calls(r.trace) == []
  {
    var r := ExportBlock(env, db, b, txs, ops);
    CallsOfNoCall(r.trace);
  }

  /** With both saves succeeding: node infos are saved, then the block, then
      the block is fanned out, then the transactions are exported from the
      database holding both. */
  lemma ExportBlockSteps(env: Env, db: DbState, b: Block, txs: seq<Tx>, ops: NodeOperators)
    requires !env.faults.saveNodeInfos(ops.nodeInfos) && !env.faults.saveBlock(b)
    ensures var x := ExportTxEvents(env, db.WithNodeInfos(ops.nodeInfos).WithBlock(b), txs);
      ExportBlock(env, db, b, txs, ops)
        == Run(x.err, x.db, [SaveNodeInfosCall(ops.nodeInfos), SaveBlockCall(b)]
                            + Dispatch(env, BlockHook(b, txs, ops)) + x.trace)
  {
  }

  /** With both saves succeeding, the result is that of exporting the
      transactions after saving the node infos and the block: handler errors
      never surface, and the block stays stored whatever happens next. */
  lemma ExportBlockStoresBlock(env: Env, db: DbState, b: Block, txs: seq<Tx>, ops: NodeOperators)
    requires !env.faults.saveNodeInfos(ops.nodeInfos) && !env.faults.saveBlock(b)
    ensures var r := ExportBlock(env, db, b, txs, ops);
      var x := ExportTxEvents(env, db.WithNodeInfos(ops.nodeInfos).WithBlock(b), txs);
      && r.err == x.err && r.db == x.db
      && r.db.heights == db.heights + {b.height}
      && r.db.nodeInfos == db.nodeInfos + ops.nodeInfos
  {
    var saved := db.WithNodeInfos(ops.nodeInfos).WithBlock(b);
    ExportBlockSteps(env, db, b, txs, ops);
    ExportTxsSavesPrefix(env, saved, txs, |txs|);
  }

  /** With both saves succeeding: node infos are saved, then the block; then
      every block handler runs in registration order, before any transaction
      handler. */
  lemma {:induction false} ExportBlockOrder(env: Env, db: DbState, b: Block, txs: seq<Tx>, ops: NodeOperators)
    requires !env.faults.saveNodeInfos(ops.nodeInfos) && !env.faults.saveBlock(b)
    ensures var r := ExportBlock(env, db, b, txs, ops);
      var x := ExportTxEvents(env, db.WithNodeInfos(ops.nodeInfos).WithBlock(b), txs);
      && r.trace[..2] == [SaveNodeInfosCall(ops.nodeInfos), SaveBlockCall(b)]
      && Calls(r.trace) == CallsTo(Capable(env.modules, BlockHandler, |env.modules|), BlockHook(b, txs, ops))
                           + Calls(x.trace)
  {
    var x := ExportTxEvents(env, db.WithNodeInfos(ops.nodeInfos).WithBlock(b), txs);
    var head := [SaveNodeInfosCall(ops.nodeInfos), SaveBlockCall(b)];
    var d := Dispatch(env, BlockHook(b, txs, ops));
    ExportBlockSteps(env, db, b, txs, ops);
    assert (head + d + x.trace)[..2] == head;
    CallsOfNoCall(head);
    CallsAppend(head, d);
    assert [] + Calls(d) == Calls(d);
    DispatchCalls(env, BlockHook(b, txs, ops));
    assert Calls(head + d) == CallsTo(Capable(env.modules, BlockHandler, |env.modules|), BlockHook(b, txs, ops));
    CallsAppend(head + d, x.trace);
  }

  /** Once `process` has succeeded for a height, processing it again is a
      skip (assuming the chain returns for a height a block of that height). */
  lemma ProcessIdempotent(env: Env, db: DbState, height: Height)
    requires !env.faults.hasBlock(height)
    requires env.chain.block(height).Some? ==> env.chain.block(height).value.height == height
    requires Process(env, db, height).err.None?
    ensures var r := Process(env, db, height);
      Process(env, r.db, height) == Run(None, r.db, [HasBlockCall(height)])
  {
    if height !in db.heights {
      assert FetchesSucceed(env, height);
      var b := env.chain.block(height).value;
      var ops := env.chain.nodeOperators(height).value;
      ProcessFetchesThenExports(env, db, height);
      if env.faults.saveNodeInfos(ops.nodeInfos) || env.faults.saveBlock(b) {
        ExportBlockSaveFails(env, db, b, env.chain.txs(b).value, ops);
        assert false;
      }
      RetrySkipsPartiallyExportedHeight(env, db, height);
    }
  }

  /** As soon as the node infos and the block are saved, the height counts as
      stored, even if exporting a transaction then fails and `process`
      returns that error. The worker re-enqueues the height, and the retry is
      a skip: the transactions left unexported stay so. */
  lemma RetrySkipsPartiallyExportedHeight(env: Env, db: DbState, height: Height)
    requires !env.faults.hasBlock(height) && height !in db.heights
    requires env.chain.block(height).Some? ==> env.chain.block(height).value.height == height
    requires FetchesSucceed(env, height)
    requires !env.faults.saveNodeInfos(env.chain.nodeOperators(height).value.nodeInfos)
    requires !env.faults.saveBlock(env.chain.block(height).value)
    ensures var b := env.chain.block(height).value;
      var saved := db.WithNodeInfos(env.chain.nodeOperators(height).value.nodeInfos).WithBlock(b);
      var r := Process(env, db, height);
      && r.err == ExportTxEvents(env, saved, env.chain.txs(b).value).err
      && height in r.db.heights
      && Process(env, r.db, height) == Run(None, r.db, [HasBlockCall(height)])
  {
    var b := env.chain.block(height).value;
    var ops := env.chain.nodeOperators(height).value;
    ProcessFetchesThenExports(env, db, height);
    ExportBlockStoresBlock(env, db, b, env.chain.txs(b).value, ops);
  }
}

=== FILE: registry.dfy ===
/** The module registry: modules are named extension units, each implementing
    any subset of the optional handler interfaces. Registration order is the
    order of the sequence and fixes the dispatch order of every capability. */
module Registry {
  import opened Types

  /** The optional interfaces a module may implement. */
  datatype Capability =
    | AdditionalOperations
    | AsyncOperations
    | PeriodicOperations
    | FastSync
    | GenesisHandler
    | BlockHandler
    | TransactionHandler
    | MessageHandler

  /** A registered module: its name and the interfaces it implements. */
  datatype Module = Module(name: string, capabilities: set<Capability>)
  {
    predicate Implements(c: Capability) {
      c in capabilities
    }
  }

  /** The arguments of one handler call, one alternative per handler interface
      the worker dispatches to. */
  datatype Hook =
    | GenesisHook(genesis: GenesisDoc, appState: AppState)
    | BlockHook(block: Block, txs: seq<Tx>, operators: NodeOperators)
    | TxHook(tx: Tx)
    | MsgHook(index: nat, msg: Msg, tx: Tx)
  {
    /** The interface a module must implement to receive this call. */
    function Kind(): Capability {
      match this
      case GenesisHook(_, _) => GenesisHandler
      case BlockHook(_, _, _) => BlockHandler
      case TxHook(_) => TransactionHandler
      case MsgHook(_, _, _) => MessageHandler
    }
  }

  /** Linear lookup by name; `None` stands for the source's `(nil, false)`. */
  function FindByName(modules: seq<Module>, name: string): (found: Option<Module>)
    ensures found.Some? <==> exists i :: 0 <= i < |modules| && modules[i].name == name
    ensures found.Some? ==> found.value.name == name && found.value in modules
  {
    if |modules| == 0 then None
    else if modules[0].name == name then Some(modules[0])
    else FindByName(modules[1..], name)
  }

  /** When several modules share a name, the earliest registered one is returned. */
  lemma {:induction false} FindByNameReturnsFirst(modules: seq<Module>, name: string, i: nat)
    requires i < |modules| && modules[i].name == name
    requires forall j :: 0 <= j < i ==> modules[j].name != name
    ensures FindByName(modules, name) == Some(modules[i])
  {
    if i > 0 {
      assert modules[0].name != name;
      FindByNameReturnsFirst(modules[1..], name, i - 1);
    }
  }

  /** The indices, among the first `n` registered modules, of those
      implementing `c`, in registration order. This is the order in which the
      worker's fan-out loops visit capable modules. */
  function Capable(modules: seq<Module>, c: Capability, n: nat): (idx: seq<nat>)
    requires n <= |modules|
    ensures |idx| <= n
  {
    if n == 0 then []
    else Capable(modules, c, n - 1) + (if modules[n - 1].Implements(c) then [n - 1] else [])
  }

  /** `Capable` lists each module implementing `c` exactly once, no other
      module, and in strictly increasing (registration) order. */
  lemma {:induction false} CapableExactly(modules: seq<Module>, c: Capability, n: nat)
    requires n <= |modules|
    ensures var idx := Capable(modules, c, n);
      && (forall j :: 0 <= j < |idx| ==> idx[j] < n && modules[idx[j]].Implements(c))
      && (forall i :: 0 <= i < n && modules[i].Implements(c) ==> i in idx)
      && (forall j, k :: 0 <= j < k < |idx| ==> idx[j] < idx[k])
  {
    if n > 0 {
      CapableExactly(modules, c, n - 1);
      var prev := Capable(modules, c, n - 1);
      var last := if modules[n - 1].Implements(c) then [n - 1] else [];
      assert Capable(modules, c, n) == prev + last;
      forall i | 0 <= i < n && modules[i].Implements(c)
        ensures i in prev + last
      {
        if i < n - 1 {
          assert i in prev;
        } else {
          assert (prev + last)[|prev|] == i;
        }
      }
    }
  }
}

=== FILE: start_facts.dfy ===
/** Properties of the work loop: failed heights are re-enqueued, no height is
    lost, and re-delivered heights that are already stored cost nothing. */
module StartFacts {
  import opened Types
  import opened Store
  import opened Pipeline
  import opened DispatchFacts

  /** One iteration re-enqueues the head of the queue, at the end and behind
      the heights already waiting, exactly when processing it failed. */
  lemma StartStepRequeues(env: Env, s: Loop)
    requires s.queue != []
    ensures var t := StartStep(env, s);
      var failed := Process(env, s.db, s.queue[0]).err.Some?;
      && (|t.queue| == |s.queue| <==> failed)
      && t.queue[..|s.queue| - 1] == s.queue[1..]
      && (failed ==> t.queue[|s.queue| - 1] == s.queue[0] && t.done == s.done)
      && (!failed ==> t.queue == s.queue[1..] && t.done == s.done + [s.queue[0]])
  {
  }

  /** No height is lost: every height taken from the queue is either back in
      it or among those processed successfully. */
  lemma {:induction false} StartConserves(env: Env, s: Loop, k: nat)
    ensures var t := StartUpTo(env, s, k);
      multiset(t.queue) + multiset(t.done) == multiset(s.queue) + multiset(s.done)
  {
    if k > 0 {
      StartConserves(env, s, k - 1);
      StepConserves(env, StartUpTo(env, s, k - 1));
    }
  }

  /** One iteration moves the head of the queue to its end or to `done`. */
  lemma StepConserves(env: Env, t: Loop)
    ensures var u := StartStep(env, t);
      multiset(u.queue) + multiset(u.done) == multiset(t.queue) + multiset(t.done)
  {
    if t.queue != [] {
      assert t.queue == [t.queue[0]] + t.queue[1..];
    }
  }

  /** A run of already-stored heights (re-delivered work) is drained one per
      iteration, each a mere existence check: the database is untouched and no
      handler is called. */
  lemma {:induction false} StartSkipsStored(env: Env, s: Loop, k: nat)
    requires k <= |s.queue|
    requires forall i :: 0 <= i < |s.queue| ==> s.queue[i] in s.db.heights && !env.faults.hasBlock(s.queue[i])
    ensures var t := StartUpTo(env, s, k);
      && t.queue == s.queue[k..] && t.db == s.db && t.done == s.done + s.queue[..k]
      && Calls(t.trace) == Calls(s.trace)
  {
    if k > 0 {
      StartSkipsStored(env, s, k - 1);
      var h := s.queue[k - 1];
      assert h in s.db.heights && !env.faults.hasBlock(h);
      SkipStep(env, s, StartUpTo(env, s, k - 1), k);
    }
  }

  /** The iteration after `k - 1` skips is one more skip. */
  lemma SkipStep(env: Env, s: Loop, t: Loop, k: nat)
    requires 0 < k <= |s.queue|
    requires s.queue[k - 1] in s.db.heights && !env.faults.hasBlock(s.queue[k - 1])
    requires t.queue == s.queue[k - 1..] && t.db == s.db && t.done == s.done + s.queue[..k - 1]
    requires Calls(t.trace) == Calls(s.trace)
    ensures var u := StartStep(env, t);
      && u.queue == s.queue[k..] && u.db == s.db && u.done == s.done + s.queue[..k]
      && Calls(u.trace) == Calls(s.trace)
  {
    var h := s.queue[k - 1];
    assert t.queue[0] == h;
    assert Process(env, t.db, h) == Run(None, t.db, [HasBlockCall(h)]);
    CallsAppend(t.trace, [HasBlockCall(h)]);
    CallsOfNoCall([HasBlockCall(h)]);
    assert s.queue[..k] == s.queue[..k - 1] + [h];
    assert t.queue[1..] == s.queue[k..];
  }
}

=== FILE: store.dfy ===
/** The persistence boundary the worker writes through: which heights hold a
    stored block, and the records saved so far. Whether a call fails is an
    oracle (`Faults`) fixed when the database is created. */
module Store {
  import opened Types

  /** The observable content of the database. */
  datatype DbState = DbState(
    heights: set<Height>,
    nodeInfos: seq<NodeInfo>,
    blocks: seq<Block>,
    txs: seq<Tx>,
    signatures: seq<CommitRecord>)
  {
    function WithNodeInfos(infos: seq<NodeInfo>): DbState
    {
      this.(nodeInfos := nodeInfos + infos)
    }

    function WithBlock(b: Block): DbState
    {
      this.(heights := heights + {b.height}, blocks := blocks + [b])
    }

    function WithTx(tx: Tx): DbState
    {
      this.(txs := txs + [tx])
    }

    function WithSignatures(records: seq<CommitRecord>): DbState
    {
      this.(signatures := signatures + records)
    }
  }

  const Empty := DbState({}, [], [], [], [])

  /** Which database calls fail, as a function of their arguments. */
  datatype Faults = Faults(
    hasBlock: Height -> bool,
    saveNodeInfos: seq<NodeInfo> -> bool,
    saveBlock: Block -> bool,
    saveTx: Tx -> bool,
    saveCommitSignatures: seq<CommitRecord> -> bool)

  class Database {
    const faults: Faults
    var heights: set<Height>
    var nodeInfos: seq<NodeInfo>
    var blocks: seq<Block>
    var txs: seq<Tx>
    var signatures: seq<CommitRecord>

    function State(): DbState
      reads this
    {
      DbState(heights, nodeInfos, blocks, txs, signatures)
    }

    constructor (faults: Faults)
      ensures this.faults == faults && State() == Empty
    {
      this.faults := faults;
      heights, nodeInfos, blocks, txs, signatures := {}, [], [], [], [];
    }

    /** Whether a block at `height` is stored. */
    method HasBlock(height: Height) returns (r: Result<bool>)
      ensures r == if faults.hasBlock(height) then Err(HasBlockFailed) else Ok(height in heights)
    {
      if faults.hasBlock(height) {
        return Err(HasBlockFailed);
      }
      return Ok(height in heights);
    }

    method SaveNodeInfos(infos: seq<NodeInfo>) returns (err: Option<Error>)
      modifies this
      ensures err == if faults.saveNodeInfos(infos) then Some(SaveNodeInfosFailed) else None
      ensures State() == if err.Some? then old(State()) else old(State()).WithNodeInfos(infos)
    {
      if faults.saveNodeInfos(infos) {
        return Some(SaveNodeInfosFailed);
      }
      nodeInfos := nodeInfos + infos;
      return None;
    }

    method SaveBlock(b: Block) returns (err: Option<Error>)
      modifies this
      ensures err == if faults.saveBlock(b) then Some(SaveBlockFailed) else None
      ensures State() == if err.Some? then old(State()) else old(State()).WithBlock(b)
    {
      if faults.saveBlock(b) {
        return Some(SaveBlockFailed);
      }
      heights := heights + {b.height};
      blocks := blocks + [b];
      return None;
    }

    method SaveTx(tx: Tx) returns (err: Option<Error>)
      modifies this
      ensures err == if faults.saveTx(tx) then Some(SaveTxFailed) else None
      ensures State() == if err.Some? then old(State()) else old(State()).WithTx(tx)
    {
      if faults.saveTx(tx) {
        return Some(SaveTxFailed);
      }
      txs := txs + [tx];
      return None;
    }

    method SaveCommitSignatures(records: seq<CommitRecord>) returns (err: Option<Error>)
      modifies this
      ensures err == if faults.saveCommitSignatures(records) then Some(SaveCommitSignaturesFailed) else None
      ensures State() == if err.Some? then old(State()) else old(State()).WithSignatures(records)
    {
      if faults.saveCommitSignatures(records) {
        return Some(SaveCommitSignaturesFailed);
      }
      signatures := signatures + records;
      return None;
    }
  }
}

=== FILE: types.dfy ===
/** Values that flow through the block-ingestion pipeline: the chain data fetched
    for one height, the records written to the database, and the errors the
    worker returns. Go pointers that may be nil become `Option`s; Go's `error`
    returns become an `Error` naming where the failure came from. */
module Types {

  datatype Option<+T> = None | Some(value: T)

  datatype Result<+T> = Ok(value: T) | Err(error: Error)

  /** The origin of an error returned by a worker operation. */
  datatype Error =
    | HasBlockFailed
    | BlockFetchFailed
    | TxsFetchFailed
    | NodeOperatorsFetchFailed
    | SaveNodeInfosFailed
    | SaveBlockFailed
    | SaveTxFailed
    | MsgDecodeFailed
    | ValidatorNotFound
    | SaveCommitSignaturesFailed
    | GenesisUnmarshalFailed

  /** A block height (an `int64` in the source; heights never approach its bounds). */
  type Height = int

  /** Raw bytes of a validator address as carried in a commit signature. */
  type Address = seq<bv8>

  datatype Block = Block(height: Height, id: string)

  /** A message as it sits, still packed, inside a transaction body. */
  datatype RawMsg = RawMsg(typeUrl: string, value: seq<bv8>)

  /** A message after decoding. */
  datatype Msg = Msg(typeTag: string, payload: string)

  datatype Tx = Tx(id: string, height: Height, messages: seq<RawMsg>)

  datatype NodeInfo = NodeInfo(nodeId: string, role: string)

  datatype NodeOperators = NodeOperators(nodeInfos: seq<NodeInfo>)

  /** One entry of a block commit; `signature == None` is a nil signature. */
  datatype CommitSig = CommitSig(validatorAddress: Address, signature: Option<seq<bv8>>, timestamp: int)

  datatype Commit = Commit(height: Height, signatures: seq<CommitSig>)

  /** A member of the validator set; `address` is its consensus address in text form. */
  datatype Validator = Validator(address: string, votingPower: int, proposerPriority: int)

  /** The record persisted for one commit signature. */
  datatype CommitRecord = CommitRecord(
    validatorAddress: string,
    votingPower: int,
    proposerPriority: int,
    height: Height,
    timestamp: int)

  datatype GenesisDoc = GenesisDoc(chainId: string, appState: string)

  /** The genesis application state, keyed by module name, values still encoded. */
  type AppState = map<string, string>
}

=== FILE: worker.dfy ===
/** The worker: drains the height queue, fetches each block with its
    transactions and node operators, persists them, and fans each block,
    transaction and message out to the modules that handle it. Every method is
    proved to do exactly what the matching function of module Pipeline says. */
module Workers {
  import opened Types
  import opened Registry
  import opened Store
  import opened Pipeline
  import opened ExportFacts
  import opened ProcessFacts
  import opened CommitFacts

  class Worker {
    const modules: seq<Module>
    const chain: Chain
    const codec: Codec
    /** Whether the handler of module `i` fails on a call (the modules' own logic is not modelled). */
    const handlerFails: (nat, Hook) -> bool
    const db: Database
    var queue: seq<Height>
    /** The calls made so far, oldest first. */
    var trace: seq<Event>

    function Environment(): Env {
      Env(modules, chain, codec, db.faults, handlerFails)
    }

    constructor (modules: seq<Module>, chain: Chain, codec: Codec, handlerFails: (nat, Hook) -> bool,
                 db: Database, queue: seq<Height>)
      ensures this.modules == modules && this.chain == chain && this.codec == codec
      ensures this.handlerFails == handlerFails && this.db == db
      ensures this.queue == queue && trace == []
    {
      this.modules, this.chain, this.codec := modules, chain, codec;
      this.handlerFails, this.db := handlerFails, db;
      this.queue, this.trace := queue, [];
    }

    /** Calls the handler for `hook` of every module implementing its
        interface, in registration order; a failing handler is logged and
        the loop goes on. */
    method FanOut(hook: Hook)
      modifies this`trace
      ensures trace == old(trace) + Dispatch(Environment(), hook)
    {
      ghost var env := Environment();
      for i := 0 to |modules|
        invariant trace == old(trace) + DispatchUpTo(env, hook, i)
      {
        ghost var before := trace;
        if modules[i].Implements(hook.Kind()) {
          trace := trace + [HandlerCall(i, hook)];
          if handlerFails(i, hook) {
            trace := trace + [HandlerError(i, hook)];
            TraceAssoc(before, [HandlerCall(i, hook)], [HandlerError(i, hook)]);
          }
        } else {
          assert trace == before + [];
        }
        TraceAssoc(old(trace), DispatchUpTo(env, hook, i), HandlerStep(env, hook, i));
      }
    }

    /** Runs the work loop for `rounds` iterations (the source loops for as
        long as the queue is open): each iteration processes the head of the
        queue and re-enqueues it at the end if processing failed. */
    method Start(rounds: nat)
      modifies this`trace, this`queue, db
      ensures var s := StartUpTo(Environment(), Loop(old(queue), old(db.State()), [], []), rounds);
              queue == s.queue && db.State() == s.db && trace == old(trace) + s.trace
    {
      ghost var env := Environment();
      ghost var s0 := Loop(queue, db.State(), [], []);
      ghost var t0 := trace;
      ghost var done: seq<Height> := [];
      for k := 0 to rounds
        invariant var s := StartUpTo(env, s0, k);
          queue == s.queue && db.State() == s.db && trace == t0 + s.trace && done == s.done
      {
        ghost var s := StartUpTo(env, s0, k);
        assert StartUpTo(env, s0, k + 1) == StartStep(env, s);
        if queue != [] {
          var height := queue[0];
          ghost var r := Pipeline.Process(env, db.State(), height);
          var err := Process(height);
          TraceAssoc(t0, s.trace, r.trace);
          if err.Some? {
            queue := queue[1..] + [height];
            trace := trace + [Requeue(height)];
            TraceAssoc(t0, s.trace + r.trace, [Requeue(height)]);
          } else {
            queue := queue[1..];
            done := done + [height];
          }
        }
      }
    }

    /** Processes one height: nothing beyond the existence check if its block
        is already stored; otherwise fetch and export it. */
    method Process(height: Height) returns (err: Option<Error>)
      modifies this`trace, db
      ensures var r := Pipeline.Process(Environment(), old(db.State()), height);
              err == r.err && db.State() == r.db && trace == old(trace) + r.trace
    {
      ghost var t0 := trace;
      var stored := db.HasBlock(height);
      trace := trace + [HasBlockCall(height)];
      if stored.Err? {
        return Some(stored.error);
      }
      if stored.value {
        return None;
      }
      var block := chain.block(height);
      trace := trace + [BlockCall(height)];
      if block.None? {
        return Some(BlockFetchFailed);
      }
      var txs := chain.txs(block.value);
      trace := trace + [TxsCall(block.value)];
      if txs.None? {
        return Some(TxsFetchFailed);
      }
      var ops := chain.nodeOperators(height);
      trace := trace + [NodeOperatorsCall(height)];
      if ops.None? {
        return Some(NodeOperatorsFetchFailed);
      }
      assert trace == t0 + Fetches(height, block.value);
      ghost var x := Pipeline.ExportBlock(Environment(), db.State(), block.value, txs.value, ops.value);
      err := ExportBlock(block.value, txs.value, ops.value);
      TraceAssoc(t0, Fetches(height, block.value), x.trace);
    }

    /** Calls the genesis handler of every module implementing it, in order,
        once the application state has been unmarshalled. */
    method HandleGenesis(genesis: GenesisDoc) returns (err: Option<Error>)
      modifies this`trace
      ensures var r := Pipeline.HandleGenesis(Environment(), db.State(), genesis);
              err == r.err && trace == old(trace) + r.trace
    {
      var appState := codec.unmarshalAppState(genesis.appState);
      if appState.None? {
        return Some(GenesisUnmarshalFailed);
      }
      FanOut(GenesisHook(genesis, appState.value));
      return None;
    }

    method SaveNodeInfos(infos: seq<NodeInfo>) returns (err: Option<Error>)
      modifies this`trace, db
      ensures var r := Pipeline.SaveNodeInfos(Environment(), old(db.State()), infos);
              err == r.err && db.State() == r.db && trace == old(trace) + r.trace
    {
      err := db.SaveNodeInfos(infos);
      trace := trace + [SaveNodeInfosCall(infos)];
    }

    /** Saves the node infos and the block, fans the block out to the block
        handlers and exports the transactions. */
    method ExportBlock(b: Block, txs: seq<Tx>, ops: NodeOperators) returns (err: Option<Error>)
      modifies this`trace, db
      ensures var r := Pipeline.ExportBlock(Environment(), old(db.State()), b, txs, ops);
              err == r.err && db.State() == r.db && trace == old(trace) + r.trace
    {
      ghost var env := Environment();
      ghost var d0 := db.State();
      err := SaveNodeInfos(ops.nodeInfos);
      if err.Some? {
        ExportBlockSaveFails(env, d0, b, txs, ops);
        return;
      }
      err := db.SaveBlock(b);
      trace := trace + [SaveBlockCall(b)];
      if err.Some? {
        ExportBlockSaveFails(env, d0, b, txs, ops);
        return;
      }
      ghost var head := [SaveNodeInfosCall(ops.nodeInfos), SaveBlockCall(b)];
      assert trace == old(trace) + head;
      FanOut(BlockHook(b, txs, ops));
      ghost var x := Pipeline.ExportTxEvents(env, d0.WithNodeInfos(ops.nodeInfos).WithBlock(b), txs);
      err := ExportTxEvents(txs);
      TraceAssoc(old(trace), head, Dispatch(env, BlockHook(b, txs, ops)));
      TraceAssoc(old(trace), head + Dispatch(env, BlockHook(b, txs, ops)), x.trace);
      ExportBlockSteps(env, d0, b, txs, ops);
    }

    /** Exports the transactions in order; the first error ends the call. */
    method ExportTxEvents(txs: seq<Tx>) returns (err: Option<Error>)
      modifies this`trace, db
      ensures var r := Pipeline.ExportTxEvents(Environment(), old(db.State()), txs);
              err == r.err && db.State() == r.db && trace == old(trace) + r.trace
    {
      ghost var env := Environment();
      ghost var db0 := db.State();
      ghost var t0 := trace;
      for k := 0 to |txs|
        invariant ExportTxsUpTo(env, db0, txs, k).err.None?
        invariant db.State() == ExportTxsUpTo(env, db0, txs, k).db
        invariant trace == t0 + ExportTxsUpTo(env, db0, txs, k).trace
      {
        ghost var before := ExportTxsUpTo(env, db0, txs, k);
        ghost var t1 := trace;
        err := ExportTx(txs[k]);
        ghost var step := Pipeline.ExportTx(env, before.db, txs[k]);
        ExportTxsNext(env, db0, txs, k);
        TraceAssoc(t0, before.trace, step.trace);
        if err.Some? {
          ExportTxsStopAtError(env, db0, txs, k + 1, |txs|);
          return;
        }
      }
      return None;
    }

    /** Saves one transaction, fans it out to the transaction handlers, then
        handles its messages. */
    method ExportTx(tx: Tx) returns (err: Option<Error>)
      modifies this`trace, db
      ensures var r := Pipeline.ExportTx(Environment(), old(db.State()), tx);
              err == r.err && db.State() == r.db && trace == old(trace) + r.trace
    {
      ghost var env := Environment();
      ghost var t0 := trace;
      err := db.SaveTx(tx);
      trace := trace + [SaveTxCall(tx)];
      if err.Some? {
        return;
      }
      ghost var saved := db.State();
      FanOut(TxHook(tx));
      ghost var m := MsgsUpTo(env, saved, tx, |tx.messages|);
      err := ExportMsgs(tx);
      TraceAssoc(t0, [SaveTxCall(tx)], Dispatch(env, TxHook(tx)));
      TraceAssoc(t0, [SaveTxCall(tx)] + Dispatch(env, TxHook(tx)), m.trace);
    }

    /** Decodes each message of `tx` in order and fans it out to the message
        handlers; the first decode error ends the call. */
    method ExportMsgs(tx: Tx) returns (err: Option<Error>)
      modifies this`trace
      ensures var r := MsgsUpTo(Environment(), db.State(), tx, |tx.messages|);
              err == r.err && trace == old(trace) + r.trace
    {
      ghost var env := Environment();
      ghost var d := db.State();
      ghost var t0 := trace;
      for i := 0 to |tx.messages|
        invariant MsgsUpTo(env, d, tx, i).err.None?
        invariant trace == t0 + MsgsUpTo(env, d, tx, i).trace
      {
        ghost var before := MsgsUpTo(env, d, tx, i).trace;
        var msg := codec.decodeMsg(tx.messages[i]);
        if msg.None? {
          MsgsFail(env, d, tx, i + 1);
          MsgsStopAtError(env, d, tx, i + 1, |tx.messages|);
          return Some(MsgDecodeFailed);
        }
        FanOut(MsgHook(i, msg.value, tx));
        MsgsNext(env, d, tx, i + 1);
        TraceAssoc(t0, before, Dispatch(env, MsgHook(i, msg.value, tx)));
      }
      return None;
    }

    /** Builds one record per non-nil signature, failing before any save if a
        signer is not in the validator set, then saves the records. */
    method ExportCommit(commit: Commit, vals: seq<Validator>) returns (err: Option<Error>)
      modifies this`trace, db
      ensures var r := Pipeline.ExportCommit(Environment(), old(db.State()), commit, vals);
              err == r.err && db.State() == r.db && trace == old(trace) + r.trace
    {
      var signatures: seq<CommitRecord> := [];
      for k := 0 to |commit.signatures|
        invariant CommitRecords(codec, commit, vals, k) == Ok(signatures)
      {
        var sig := commit.signatures[k];
        if sig.signature.None? {
          continue;
        }
        var val := FindValidator(vals, codec.consAddress(sig.validatorAddress));
        if val.None? {
          CommitRecordsStopAtError(codec, commit, vals, k + 1, |commit.signatures|);
          return Some(ValidatorNotFound);
        }
        signatures := signatures + [RecordFor(codec, commit, sig, val.value)];
      }
      err := db.SaveCommitSignatures(signatures);
      trace := trace + [SaveCommitSignaturesCall(signatures)];
    }
  }
}
